=== FILE: README.md ===
# Flow-shop scheduling with NEH — a Dafny model

This project models the core of a permutation flow-shop scheduler. The scheduler computes departure-time matrices for two machine environments:

- **blocking**: there are no buffers between machines, so a finished job stays on its machine until the next machine is free;
- **no-wait**: once a job starts, it passes through every machine without pausing.

On top of these, it builds a job sequence with the NEH constructive heuristic. A batch driver reads its parameters from an ini file, then runs the heuristic once per numbered input file.

The model is functional. Matrices are `seq<seq<int>>`, with machines as 0-based rows and jobs as 1-based numbers. Exceptions and null results become `Result`/`Option` values. The objective function NEH minimises is a parameter, `cost: seq<int> -> int`. The heap, the file system and the thread pool are parameters or left out.

Modules:

- `Schedule`: processing-time matrices, job sequences, and the first column both engines share.
- `Blocking`, `NoWait`: the column-by-column departure recurrences. Each recurrence is proved to be the least solution of the declarative constraint system `Feasible`, and the only solution of its schedule predicate (`IsBlockingSchedule`, `IsNoWaitSchedule`).
- `Neh`: `makeInitialAvailJobList`, `bestPermutation` and `run`.
- `Solution`: `FlowshopSolution`, with bounds-checked 1-based access and move semantics.
- `StringUtils`: the whitespace trims.
- `IniReader`: `parseFile` as a left fold over lines, `parseEntry`, and the lookups.
- `IntText`: `std::to_string(int)`, and `int` extraction from a string stream, as `getEntryAs<int>` uses them.
- `Experiment`: `readTestParams`, `allocFlowShop`, the submitted test range, the first-failure status and `runNEHThreaded`.
- `Tables`: `DataTable<T>`.
- `Mem`: the array and matrix helpers.
- `Results`: `Option`, `Result` and the exception kinds.

Two behaviours of the code that a reader might not expect:

- NEH breaks a tie between equally good insertion positions by keeping the earliest position, because it replaces the best solution only on a strictly smaller makespan (src/neh.cpp:83).
- With a single job, `run` returns no solution at all (see Findings).

## Model

| member | source | states |
|---|---|---|
| Schedule.Cumulative | src/flowshopblocking.cpp:16-24 | a job that meets no other job departs each machine at the running sum of its processing times down the machines |
| Schedule.Max | src/flowshopblocking.cpp:33 | the larger of the two values, and one of them |
| Schedule.Transpose | src/flowshopblocking.cpp:26-44 | the list of computed columns read as a row-major `rows` x `cols` departure matrix, cell by cell |
| Blocking.LowerRows | src/flowshopblocking.cpp:35-43 | rows 1 to `rows-2` of a column start when the machine above releases the job, and are held until the next machine has released the previous job; the last row never blocks |
| Blocking.NextColumn | src/flowshopblocking.cpp:30-43 | machine 0 is held until machine 1 frees, the inner machines follow the blocking rule, and the last machine adds only its processing time |
| Blocking.Columns | src/flowshopblocking.cpp:16-44 | column 0 is the first job's running sum, and each later column is derived from the one before it |
| Blocking.Departures | src/flowshopblocking.cpp:16-44 | the computed matrix satisfies the blocking recurrence at every cell |
| Blocking.ScheduleIsFeasible | src/flowshopblocking.cpp:26-44 | the computed departures meet every blocking constraint: processing time on each machine, and no release before the next machine is free |
| Blocking.EarliestAt | src/flowshopblocking.cpp:26-44 | any feasible blocking timetable departs each cell no earlier than the recurrence, by induction on (position, machine) |
| Blocking.Earliest | src/flowshopblocking.cpp:26-44 | the recurrence gives the earliest feasible departure of every job from every machine |
| Blocking.Unique | src/flowshopblocking.cpp:16-44 | the blocking recurrence has exactly one solution |
| Blocking.RowsNonDecreasing | src/flowshopblocking.cpp:30-43 | with non-negative times, each machine's departures never decrease along the sequence |
| NoWait.Shift | src/flowshopnowait.cpp:42-44 | delaying a partly placed job moves every departure already computed in its column by the same amount |
| NoWait.PlaceRow | src/flowshopnowait.cpp:35-49 | after one round of the row loop, the job reaches the machine exactly when that machine frees; the earlier machines of the column keep their offsets; and the new machine adds the processing time |
| NoWait.PlaceRowOk | src/flowshopnowait.cpp:35-49 | one round of the row loop keeps the column a valid no-wait placement after the previous job |
| NoWait.PlaceRowChain | src/flowshopnowait.cpp:42-49 | after one round the job still leaves each machine exactly its processing time after the one before, and no earlier than machine 0 allows |
| NoWait.PlaceRowFree | src/flowshopnowait.cpp:37-47 | after one round every machine of the column is free when the job reaches it |
| NoWait.PlaceRows | src/flowshopnowait.cpp:35-50 | the row loop yields a full column that is a valid no-wait placement after the previous job |
| NoWait.NextColumn | src/flowshopnowait.cpp:31-50 | one round of the outer loop places the next job without waiting and without overlapping the previous job on any machine |
| NoWait.Columns | src/flowshopnowait.cpp:19-50 | column 0 is the first job's running sum, and each later column is the no-wait placement after the one before it |
| NoWait.Departures | src/flowshopnowait.cpp:19-50 | the computed matrix is a no-wait schedule at every position |
| NoWait.ScheduleIsFeasible | src/flowshopnowait.cpp:29-50 | the computed departures meet every no-wait constraint: no waiting between machines, no overlap with the previous job, and the processing time on machine 0 |
| NoWait.SameOffset | src/flowshopnowait.cpp:37-49 | in every no-wait timetable, a job's departure from a machine lies a fixed offset after its departure from machine 0 |
| NoWait.EarliestStart | src/flowshopnowait.cpp:37-47 | if the previous job departs no later than in a feasible timetable, the next job leaves machine 0 no later either, because it is pushed back only until some machine frees |
| NoWait.PushedStart | src/flowshopnowait.cpp:40-46 | a job held back until machine `w` frees starts no earlier in any feasible timetable whose previous job leaves machine `w` no earlier |
| NoWait.EarliestColumn | src/flowshopnowait.cpp:29-50 | the computed column departs no later than the same column of any feasible no-wait timetable |
| NoWait.Earliest | src/flowshopnowait.cpp:19-50 | the computed departures are the earliest feasible no-wait departures |
| NoWait.Unique | src/flowshopnowait.cpp:19-50 | the no-wait rules have exactly one solution |
| NoWait.PrefixStable | src/flowshopnowait.cpp:31-50 | the departures of a prefix of the sequence are the first columns of the departures of the whole sequence |
| NoWait.PrefixPlaced | src/flowshopnowait.cpp:31-50 | a column placed by the no-wait rules stays validly placed when later columns are cut off |
| NoWait.SingleMachine | src/flowshopnowait.cpp:33 | with one machine, each departure is the previous one plus the job's processing time |
| NoWait.FirstColumnMatchesBlocking | src/flowshopnowait.cpp:19-27 | the no-wait engine and the blocking engine compute the same first column |
| Neh.Jobs | src/neh.cpp:49-51 | the job numbers of a list of pairs, position by position |
| Neh.Range | src/neh.cpp:43 | the job numbers `1..n` in order |
| Neh.InitialList | src/neh.cpp:43-52 | before sorting, the list holds jobs `1..n` in order, each paired with its processing time summed over all machines |
| Neh.InsertByTime | src/neh.cpp:55 | inserting into a list in non-increasing time order keeps that order and adds exactly the new pair: the multiset of pairs grows by that pair alone |
| Neh.InsertInFront | src/neh.cpp:55 | a pair whose time is at least the head's goes in front, keeping the order and adding exactly that pair |
| Neh.HeadKeepsPairs | src/neh.cpp:55 | putting the head back in front of the extended rest gives the original pairs plus the inserted one |
| Neh.InsertBehindHead | src/neh.cpp:55 | a pair with a larger time stays in front of the rest of the list after the insertion, keeping the order and the jobs |
| Neh.HeadStaysFirst | src/neh.cpp:55 | the larger-time head in front of the sorted rest gives a non-increasing list |
| Neh.HeadKeepsMembers | src/neh.cpp:55 | every pair of the extended list is the inserted pair or one of the original list |
| Neh.HeadKeepsJobs | src/neh.cpp:55 | the extended list holds the original job numbers plus the inserted one |
| Neh.SortByTime | src/neh.cpp:55 | the list is rearranged into non-increasing order of total time; the result is a permutation of the input pairs, so every job keeps its own time |
| Neh.SortedCons | src/neh.cpp:55 | inserting the head into the sorted rest gives a permutation of the whole list, for both the pairs and the job numbers |
| Neh.SumIsCumulative | src/neh.cpp:45-47 | the processing times of a job summed over the first `m` machines equal its running sum at machine `m`, the departure time of a job that meets no other |
| Neh.TotalIsLastDeparture | src/neh.cpp:45-47 | a job's total time over all machines is its departure time from the last machine when it runs alone |
| Neh.InitialMember | src/neh.cpp:43-52 | every pair of the initial list holds a job number `1..n` and that job's total time |
| Neh.MakeInitialAvailJobList | src/neh.cpp:38-56 | every job `1..n` appears exactly once, with its total time, in non-increasing order of time |
| Neh.InsertAt | src/neh.cpp:68-72 | the job is placed before position `i`, and the rest of the base sequence is unchanged on both sides |
| Neh.InsertAtMultiset | src/neh.cpp:68-72 | an insertion adds exactly the inserted job |
| Neh.EvaluateIsInsertion | src/neh.cpp:64-80 | evaluating position `i` yields the base sequence with the job inserted at `i`, one element longer and with exactly one more job, and its makespan is the objective's value on that sequence |
| Neh.BestOf | src/neh.cpp:66-89 | after `n` iterations, the kept candidate has the smallest cost among the first `n` positions, and is the earliest position with that cost |
| Neh.BestPermutation | src/neh.cpp:58-93 | of all `|base|+1` insertions, the result has minimal cost, with ties going to the earliest position, and its sequence is that insertion |
| Neh.BestIsCheapest | src/neh.cpp:82-88 | the chosen position costs no more than any other position, and every earlier position costs strictly more |
| Neh.Step | src/neh.cpp:24-29 | one round inserts the job into the current sequence, which grows by exactly that job |
| Neh.InsertNextJob | src/neh.cpp:21-25 | inserting the next sorted job into a sequence holding the first `k` jobs gives one holding the first `k+1` |
| Neh.Partial | src/neh.cpp:11-30 | after `k` jobs, the partial sequence holds exactly the first `k` jobs of the sorted list |
| Neh.GrowsByOne | src/neh.cpp:19-30 | each round inserts exactly the next job of the sorted list into the current partial sequence, at a position of least cost among all positions and the earliest such on a tie |
| Neh.CandidatesValid | src/neh.cpp:66-82 | every sequence handed to the objective in round `k` holds the first `k+1` sorted jobs |
| Neh.LastBest | src/neh.cpp:19-30 | the final round yields a permutation of the whole list, with the objective's value as makespan, made by inserting the last job into the partial sequence of the others at a cheapest position, the earliest on a tie |
| Neh.RunWith | src/neh.cpp:6-36 | a list of two or more jobs yields a permutation of those jobs whose makespan is the cost of its sequence, and that sequence is the last job inserted into the partial sequence of the others at a cheapest position, the earliest on a tie; a one-job list yields none |
| Neh.RunIsLastPartial | src/neh.cpp:19-35 | the returned sequence is the final partial sequence |
| Neh.Run | src/neh.cpp:6-36 | as written: no solution for exactly one job; otherwise a permutation of `1..n` and its makespan, chosen as the cheapest insertion of the last sorted job, the earliest on a tie |
| Neh.RunYieldsJobSeq | src/neh.cpp:6-36 | for two or more jobs, `run` yields a sequence holding each job `1..n` exactly once |
| Neh.PermutationOfRange | src/neh.cpp:43-52 | a sequence with the multiset of `1..n` has length `n`, holds only job numbers and has no repeats |
| Neh.RangeCountsOnce | src/neh.cpp:43 | each of `1..n` occurs exactly once in the initial job numbering |
| Neh.RunCorrected | src/neh.cpp:11-17 | corrected: a single job is returned as its own solution; for two or more jobs the result equals `run` |
| Solution.New | src/flowshopbasic.cpp:7-10 | a fresh solution owns a buffer of `numJobs` cells |
| Solution.At | src/flowshopbasic.cpp:21-27 | access succeeds exactly for a live buffer and `1 <= index <= seqSize`, and reads cell `index-1`; otherwise `out_of_range` with the fixed message |
| Solution.Store | src/flowshopbasic.cpp:21-27 | writing through `operator[]` is checked the same way, and keeps the size and objectives |
| Solution.MoveConstruct | src/flowshopbasic.cpp:29-36 | the new solution takes every field, and the source is left with a null buffer and its other fields |
| Solution.MoveAssign | src/flowshopbasic.cpp:38-45 | between two distinct objects, the target's fields are all overwritten by the source's, and the source is left with a null buffer |
| Solution.SelfMoveAssign | src/flowshopbasic.cpp:38-45 | moving a solution into itself keeps its size and objectives but leaves it with a null buffer, because the final null store hits the same object |
| Solution.SelfMoveEmpties | src/flowshopbasic.cpp:38-45 | after a self-move every access throws, whereas a move between distinct objects keeps every live cell readable through the target |
| Solution.NewIndexRange | src/flowshopbasic.cpp:7-27 | a fresh solution accepts exactly the positions `1..numJobs` |
| Solution.AtAfterStore | src/flowshopbasic.cpp:21-27 | the written position reads back the new value, and every other position reads what it held |
| Solution.MoveTransfers | src/flowshopbasic.cpp:29-45 | after either move between distinct objects, the new owner reads what the source read, and every access through the source throws |
| StringUtils.LTrim | include/stringutils.h:41-44 | the result is a suffix; what was dropped is all whitespace; the result does not start with whitespace |
| StringUtils.RTrim | include/stringutils.h:47-50 | the result is a prefix; what was dropped is all whitespace; the result does not end with whitespace |
| StringUtils.Trim | include/stringutils.h:53-56 | the result neither starts nor ends with whitespace, and is no longer than the input |
| StringUtils.TrimComposes | include/stringutils.h:53-56 | trimming both ends is the left trim followed by the right trim, so with the contracts of the two one-sided trims it removes only whitespace, and only at the two ends |
| StringUtils.TrimmedIsFixpoint | include/stringutils.h:53-56 | trimming an already trimmed string changes nothing |
| StringUtils.TrimIdempotent | include/stringutils.h:53-56 | trimming twice is trimming once |
| StringUtils.TrimEmptyIffAllSpace | include/stringutils.h:53-56 | a string trims to empty exactly when it is all whitespace |
| IntText.DigitChar | include/inireader.h:59 | the digit character for a value below ten reads back as that value |
| IntText.NatToString | include/inireader.h:59 | decimal digits with no leading zero |
| IntText.IntToString | include/inireader.h:59 | `std::to_string(int)` begins with a digit or a minus sign |
| IntText.DigitPrefix | include/inireader.h:61 | the longest run of leading digits |
| IntText.ParseInt | include/inireader.h:59-62 | extraction gives a value in `int` range, 0 when no digits follow the optional sign (a lone `-` or `+` included), and a negative value only after a leading `-` |
| IntText.ValueOfNatToString | include/inireader.h:59-61 | the digits written for a natural number read back as that number |
| IntText.DigitPrefixOfDigits | include/inireader.h:61 | a string of digits is read in full |
| IntText.ParseIntToString | include/inireader.h:57-63 | reading back `std::to_string(n)` gives `n` for every `int`, so a missing entry yields exactly its default |
| IniReader.Find | src/inireader.cpp:154 | the first position of the character, or none when it does not occur |
| IniReader.FirstIsUnique | src/inireader.cpp:154 | the first `=` is at a single position |
| IniReader.Split | src/inireader.cpp:154-168 | a successful split has a non-empty trimmed key and a trimmed value |
| IniReader.SplitIffEntry | src/inireader.cpp:154-168 | the split succeeds exactly when the first `=` is not the last character and the trimmed key is non-empty, and yields the trimmed text on either side of that `=` |
| IniReader.EntrySplits | src/inireader.cpp:154-168 | a well-formed entry splits into its trimmed key and value |
| IniReader.SplitIsEntry | src/inireader.cpp:154-168 | whatever splits is a well-formed entry line |
| IniReader.ParseEntrySpec | src/inireader.cpp:144-172 | a well-formed entry stores its trimmed value under its trimmed key in the current section, replacing any earlier value; any other line changes nothing |
| IniReader.ParseEntry | src/inireader.cpp:144-172 | no section and no key is removed, at most the current section is added, and every other section's entries are untouched |
| IniReader.ParseLine | src/inireader.cpp:112-132 | empty and comment lines change nothing; a header switches to its trimmed name; nothing is stored before the first header; other lines keep the section; no section and no key is ever removed, and only the current section can be added |
| IniReader.Scan | src/inireader.cpp:97-138 | the parse of a file never records the empty section name, because entries before the first header are dropped |
| IniReader.OpenFile | src/inireader.cpp:40-47 | opening succeeds exactly when the file can be read; the old data is always discarded; on success the data is the fold over the file's lines |
| IniReader.GetEntry | src/inireader.cpp:84-89 | the stored value when the section and key exist, and the default otherwise |
| IniReader.ParseLineWellFormed | src/inireader.cpp:112-132 | one line keeps the section name trimmed, and every stored key and value non-empty and trimmed |
| IniReader.StoreWellFormed | src/inireader.cpp:163-171 | storing a non-empty trimmed key with a non-empty trimmed value under a non-empty section keeps every section non-empty and every key and value non-empty and trimmed |
| IniReader.ScanWellFormed | src/inireader.cpp:97-138 | every parse of a file is well formed: no recorded section is empty, and no key or value is blank or carries surrounding whitespace |
| IniReader.SplitValueNotBlank | src/inireader.cpp:153-161 | a trimmed line whose split succeeds has a non-empty value, because the `=` is not last and the last character is not whitespace |
| IniReader.LastAssignmentWins | src/inireader.cpp:171 | when the file's last line is an entry line under a section, `getEntry` returns that line's value |
| IniReader.EntryLineSets | src/inireader.cpp:128-132 | one entry line under a named section stores its value under its key in that section |
| IniReader.OtherLineKeeps | src/inireader.cpp:112-132 | a line that is not an entry line for that key under that section leaves the stored value unchanged |
| IniReader.ValueStays | src/inireader.cpp:109-133 | a stored value survives to the end of the file unless a later entry line for the same key is read under the same section |
| IniReader.LatestValueStored | src/inireader.cpp:109-171 | the value of the final entry line for a key under a section is the one stored at the end of the file |
| IniReader.LatestAssignmentWins | src/inireader.cpp:109-171 | after the final entry line for a key under a section, wherever it appears in the file, `getEntry` returns that line's value |
| IniReader.KeysPersist | src/inireader.cpp:109-133 | a key recorded under a section after some lines is still recorded there at the end of the file |
| IniReader.SectionsPersist | src/inireader.cpp:109-133 | a section recorded after some lines is still recorded at the end of the file |
| IniReader.EntryRecordsSection | src/inireader.cpp:128-132 | a valid entry line under a section makes `sectionExists` true for that section and `entryExists` true for its key |
| IniReader.EntryLineStores | src/inireader.cpp:128-132 | one entry line read under a non-empty section records that section and its key |
| IniReader.SectionHasEntry | src/inireader.cpp:119-132 | a recorded section had at least one valid entry line while it was current |
| IniReader.KeyHasEntry | src/inireader.cpp:119-132 | a key recorded under a section had a valid entry line with that key while the section was current |
| IniReader.EntryExistsIffLine | src/inireader.cpp:67-73 | `entryExists` holds after opening a readable file exactly when some valid entry line with that key was read while that section was current |
| IniReader.SectionExistsIffEntry | src/inireader.cpp:55-58 | `sectionExists` holds after parsing exactly when some valid entry line was read while that section was current, so a header with no valid entries is not a section |
| Experiment.GetEntryAsInt | include/inireader.h:57-63 | a missing entry yields the default, and a present entry yields its text read as an `int` |
| Experiment.ReadTestParams | src/experiment.cpp:128-153 | the defaults 0, 120, 1, 0 and empty strings apply to missing entries; a thread count outside 1..16 becomes exactly 1 and an algorithm outside 0..2 exactly 0; in-range values, both file bounds and all three strings are kept as read |
| Experiment.DefaultParams | src/experiment.cpp:128-153 | without a `[test]` section the parameters are exactly the defaults |
| Experiment.AllocFlowShop | src/experiment.cpp:108-126 | 0, 1 and 2 select the basic, blocking and no-wait engines, and any other value selects none |
| Experiment.ParamsAlwaysAllocate | src/experiment.cpp:140-150 | the clamped algorithm always selects an engine |
| Experiment.SubmitFrom | src/experiment.cpp:57-63 | one task per index from `i` to `maxTestFile`, in order, whose input file is the decimal index followed by `.txt` |
| Experiment.Submitted | src/experiment.cpp:57-63 | `maxTestFile - minTestFile + 1` tasks with consecutive indices, and none when the range is empty |
| Experiment.SubmittedIndices | src/experiment.cpp:57-63 | an index is submitted exactly when it lies between `minTestFile` and `maxTestFile` |
| Experiment.FirstFailure | src/experiment.cpp:67-77 | the result is 0 exactly when every status is 0, and otherwise it is one of the statuses |
| Experiment.FirstFailureIgnoresLater | src/experiment.cpp:69-74 | statuses after the first failure never change the result |
| Experiment.PrefixDecides | src/experiment.cpp:67-77 | the result is the first non-zero status in submission order |
| Experiment.RunNEHThreaded | src/experiment.cpp:80-106 | as written: 1 when no engine is allocated, 2 when NEH throws, a null dereference for a one-job file, and 0 otherwise |
| Experiment.OneJobDereferencesNull | src/experiment.cpp:91-101 | a one-job input file with a valid algorithm reaches the null dereference |
| Experiment.RunNEHThreadedCorrected | src/experiment.cpp:80-106 | corrected: exactly 1, 2 or 0 by the same conditions, and equal to the code as written for two or more jobs |
| Experiment.NoStatusOne | src/experiment.cpp:83-85 | with parameters from `readTestParams`, no task reports status 1 |
| Tables.Create | include/datatable.h:60-72 | zero rows, then zero columns, are length errors with their messages; a failed allocation is `bad_alloc`; otherwise a rows x cols table with empty labels |
| Tables.ClearData | include/datatable.h:82-85 | every cell becomes zero, and the shape and labels are kept |
| Tables.GetColLabel | include/datatable.h:93-99 | the label, or `out_of_range` exactly for an index past the last column |
| Tables.SetColLabel | include/datatable.h:107-113 | the same check; the cells are untouched |
| Tables.GetEntry | include/datatable.h:122-132 | the cell, or `out_of_range`, with the row checked before the column |
| Tables.SetEntry | include/datatable.h:141-151 | the same checks in the same order; the shape and labels are kept |
| Tables.GetAfterSet | include/datatable.h:122-151 | the written cell reads back the new value, and every other cell is unchanged |
| Tables.LabelAfterSet | include/datatable.h:93-113 | the written label reads back the new text, and every other label is unchanged |
| Tables.ReadAfterClear | include/datatable.h:82-85 | after `clearData`, every in-range read yields zero |
| Mem.InitArray | include/mem.h:29-37 | the first `size` cells become `val`, the rest are unchanged, and a null array is left alone |
| Mem.InitMatrix | include/mem.h:49-57 | every cell of the first `rows` x `cols` block becomes `val`, and a null matrix is left alone |
| Mem.CopyArray | include/mem.h:157-161 | the first `size` cells of the destination receive the source's, and the rest are unchanged |
| Mem.AllocMatrix | include/mem.h:115-146 | null exactly when an allocation fails, and otherwise `rows` distinct rows of `cols` cells |

## Left out

- `FlowshopBasic`: reading the input file, the objective `calcObjective`, `calcStartTimeCol`, the start-time matrix and the total flow time are not part of this model. NEH sees the objective only as the `cost` parameter, and the engines are modelled through their departure matrices.
- I/O: file and console output, `exportCSV`, `outputTimesCsv` and `s_replace` are left out. So are the `Experiment` constructor's exception when the ini file cannot be opened, and `main`.
- Concurrency: the thread pool and futures are left out. Tasks are modelled in submission order, and their statuses are awaited in that order. An exception a task throws outside the guarded NEH call (from `outputTimesCsv`, say) is rethrown by `futures[i].get()` (src/experiment.cpp:69) and ends `run` by exception; the model does not cover that path. `stopAndJoinAll` is left out.
- Memory: releasing memory and the leaks are not modelled. This covers `releaseArray`, `releaseMatrix`, the destructors, and the `objectiveFs` leaked on the status-2 path.
- Mem.InitMatrix: the rows are non-null arrays, so the early return of `initArray` on a null row (include/mem.h:31) is not modelled. The only caller, `clearData` (include/datatable.h:84), passes a matrix whose rows `allocMatrix` allocated.
- Mem.AllocMatrix: `releaseMatrix` on a partly allocated matrix reads uninitialised row pointers. The model returns null at once.
- Solution.MoveAssign: the C++ operator falls off the end without returning `*this`, and it leaks the target's old buffer. Neither is modelled. The aliased case `x = std::move(x)` is not covered by `MoveAssign`, whose two values cannot alias: C++ then leaves the one object with a null buffer, so every later `operator[]` on it throws. `Solution.SelfMoveAssign` models that case separately.
- Integer width: the departure recurrences and the NEH sums use unbounded integers, so 32-bit overflow is not modelled. Only `int` extraction clamps to the `int` range.
- Experiment.Submitted: the loop `i <= maxTestFile` never ends when `maxTestFile` is the largest `int`, because `i++` overflows. The model submits the range once.
- Neh.SortByTime: the model keeps jobs with equal total times in index order. The C++ order among them is unspecified, because the comparator `>=` is not a strict weak ordering, so `std::list::sort` may well put them in another order. `Neh.Run`'s ensures speak of the model's order only; `Neh.RunWith` holds for every list order.
- Neh.Run: an input with zero jobs calls `front()` on an empty list, which is undefined behaviour. It is excluded by the requires.
- Blocking.Accepts: with one machine and two or more jobs, src/flowshopblocking.cpp:31 reads `departTimeMatrix[1][c - 1]` past a one-row matrix, which is undefined behaviour; the blocking model therefore requires a second machine whenever there is a second job and says nothing about that instance. The no-wait engine handles one machine and its model accepts it.
- StringUtils.IsSpace: `std::string` holds bytes and `std::isspace` on a negative `char` is undefined behaviour; the model works on Dafny characters and treats exactly the six "C"-locale whitespace characters as whitespace.
- Tables.GetEntry: the `runtime_error` branch for an unallocated matrix cannot be taken, because construction either allocates or throws. The model omits it.
- StringUtils: the `_copy` variants compute the same strings as the in-place trims, so they are not modelled separately.
- IntText.ParseInt: stream state after a failed extraction, and locale-dependent whitespace, are not modelled. Whitespace is the "C" locale's.
- IntText.ParseInt: for empty or all-whitespace text the stream fails before any digit is read, so `retVal` in `getEntryAs` (include/inireader.h:60-61) is never written and holds an indeterminate value; the model returns 0 there and does not promise what C++ returns. `getEntryAs` never reaches this case: `IniReader.ScanWellFormed` shows every stored value is non-empty and trimmed, and the default's `std::to_string` text is never blank.
- Experiment.RunNEHThreaded: include/experiment.h declares `runNEHThreaded` with a different parameter list than src/experiment.cpp. The model follows the definition in the .cpp file.

## Findings

| source | as written | input that shows it | evidently intended | confidence | as-written member | corrected member |
|---|---|---|---|---|---|---|
| src/neh.cpp:11-35 and src/experiment.cpp:101 | `run` assigns `bestSol` only inside the loop over the remaining jobs, so with one job it returns null; `runNEHThreaded` then calls `result->outputTimesCsv` on that null | an input file with one job (one machine, time 5) and algorithm 0, 1 or 2 | the single job is its own NEH solution, and the task returns status 0 | medium, not executed | Experiment.OneJobDereferencesNull | Experiment.RunNEHThreadedCorrected |

=== FILE: blocking.dfy ===
/** The blocking flow shop: there are no buffers between machines, so machine
    `r` keeps a finished job (and stays blocked) until machine `r + 1` has
    released its previous job. The engine fills a departure-time matrix
    `d[machine][position]` column by column. */
module Blocking {
  import opened Schedule

  /** What the two engine hooks need: a well-formed matrix, a valid sequence,
      and a second machine whenever there is a second job (rows 1 and
      `rows - 2` are read unconditionally for every later column). */
  predicate Accepts(p: seq<seq<int>>, s: seq<int>) {
    IsProcMatrix(p) && IsJobSeq(p, s) && (|s| >= 2 ==> |p| >= 2)
  }

  /** The blocking recurrence for the cell of machine `r`, position `c >= 1`. */
  predicate Recurrence(p: seq<seq<int>>, s: seq<int>, d: seq<seq<int>>, r: nat, c: nat)
    requires Accepts(p, s) && IsTimeMatrix(d, |p|, |s|) && r < |p| && 1 <= c < |s|
  {
    if r == 0 then
      // machine 0 starts the job once it has released the previous one, and
      // holds it until machine 1 has released the previous job
      d[0][c] == Max(d[0][c - 1] + Time(p, 0, s[c]), d[1][c - 1])
    else if r < |p| - 1 then
      // an inner machine starts the job when the machine above releases it
      d[r][c] == Max(d[r - 1][c] + Time(p, r, s[c]), d[r + 1][c - 1])
    else
      // the last machine never blocks
      d[r][c] == d[r - 1][c] + Time(p, r, s[c])
  }

  /** The blocking recurrence, stated over a row-major departure matrix. */
  predicate IsBlockingSchedule(p: seq<seq<int>>, s: seq<int>, d: seq<seq<int>>)
    requires Accepts(p, s)
  {
    && IsTimeMatrix(d, |p|, |s|)
    && FirstColumnOk(p, s, d)
    && forall r, c :: 0 <= r < |p| && 1 <= c < |s| ==> Recurrence(p, s, d, r, c)
  }

  /** The constraints on the cell of machine `r`, position `c`: a machine
      releases a job no earlier than it received it plus its processing time,
      and never before the next machine has released the previous job. */
  predicate FeasibleAt(p: seq<seq<int>>, s: seq<int>, e: seq<seq<int>>, r: nat, c: nat)
    requires Accepts(p, s) && IsTimeMatrix(e, |p|, |s|) && r < |p| && c < |s|
  {
    && (r == 0 && c == 0 ==> e[0][0] >= Time(p, 0, s[0]))
    && (r == 0 && c >= 1 ==> e[0][c] >= e[0][c - 1] + Time(p, 0, s[c]))
    && (r >= 1 ==> e[r][c] >= e[r - 1][c] + Time(p, r, s[c]))
    && (r < |p| - 1 && c >= 1 ==> e[r][c] >= e[r + 1][c - 1])
  }

  /** A timetable that respects every blocking constraint. */
  predicate Feasible(p: seq<seq<int>>, s: seq<int>, e: seq<seq<int>>)
    requires Accepts(p, s)
  {
    && IsTimeMatrix(e, |p|, |s|)
    && forall r, c :: 0 <= r < |p| && 0 <= c < |s| ==> FeasibleAt(p, s, e, r, c)
  }

  /** Rows |acc|.. of a column (flowshopblocking.cpp lines 35-43), `acc`
      holding the rows already computed. */
  function LowerRows(p: seq<seq<int>>, prev: seq<int>, job: int, acc: seq<int>): (col: seq<int>)
    requires IsProcMatrix(p) && |p| >= 2 && |prev| == |p| && 1 <= job <= NumJobs(p)
    requires 1 <= |acc| <= |p| - 1
    ensures |col| == |p| && col[..|acc|] == acc
    ensures forall r :: |acc| <= r < |p| - 1 ==>
              col[r] == Max(col[r - 1] + Time(p, r, job), prev[r + 1])
    ensures col[|p| - 1] == col[|p| - 2] + Time(p, |p| - 1, job)
    decreases |p| - |acc|
  {
    var r := |acc|;
    if r == |p| - 1 then acc + [acc[r - 1] + Time(p, r, job)]
    else LowerRows(p, prev, job, acc + [Max(acc[r - 1] + Time(p, r, job), prev[r + 1])])
  }

  /** Departure times of the job at a later position, given the departure
      times `prev` of the job before it (flowshopblocking.cpp lines 30-43). */
  function NextColumn(p: seq<seq<int>>, prev: seq<int>, job: int): (col: seq<int>)
    requires IsProcMatrix(p) && |p| >= 2 && |prev| == |p| && 1 <= job <= NumJobs(p)
    ensures |col| == |p|
    ensures col[0] == Max(prev[0] + Time(p, 0, job), prev[1])
    ensures forall r :: 1 <= r < |p| - 1 ==>
              col[r] == Max(col[r - 1] + Time(p, r, job), prev[r + 1])
    ensures col[|p| - 1] == col[|p| - 2] + Time(p, |p| - 1, job)
  {
    LowerRows(p, prev, job, [Max(prev[0] + Time(p, 0, job), prev[1])])
  }

  /** The first `n` columns: `initTimeMatrix` for column 0, then `n - 1`
      rounds of the outer loop of `calcTimeMatrix`. */
  function Columns(p: seq<seq<int>>, s: seq<int>, n: nat): (cs: seq<seq<int>>)
    requires Accepts(p, s) && 1 <= n <= |s|
    ensures |cs| == n
    ensures forall c :: 0 <= c < n ==> |cs[c]| == |p|
    ensures cs[0] == Cumulative(p, s[0], |p|)
    ensures forall c :: 1 <= c < n ==> cs[c] == NextColumn(p, cs[c - 1], s[c])
  {
    if n == 1 then [Cumulative(p, s[0], |p|)]
    else
      var before := Columns(p, s, n - 1);
      before + [NextColumn(p, before[n - 2], s[n - 1])]
  }

  /** The departure matrix the blocking engine computes for sequence `s`. */
  function Departures(p: seq<seq<int>>, s: seq<int>): (d: seq<seq<int>>)
    requires Accepts(p, s)
    ensures IsBlockingSchedule(p, s, d)
  {
    var cs := Columns(p, s, |s|);
    var d := Transpose(cs, |p|);
    assert FirstColumnOk(p, s, d);
    assert forall r, c :: 0 <= r < |p| && 1 <= c < |s| ==> Recurrence(p, s, d, r, c) by {
      forall r, c | 0 <= r < |p| && 1 <= c < |s|
        ensures Recurrence(p, s, d, r, c)
      {
        assert cs[c] == NextColumn(p, cs[c - 1], s[c]);
      }
    }
    d
  }

  /** The computed departures respect every blocking constraint. */
  lemma ScheduleIsFeasible(p: seq<seq<int>>, s: seq<int>, d: seq<seq<int>>)
    requires Accepts(p, s) && IsBlockingSchedule(p, s, d)
    ensures Feasible(p, s, d)
  {
    var first := Cumulative(p, s[0], |p|);
    forall r, c | 0 <= r < |p| && 0 <= c < |s|
      ensures FeasibleAt(p, s, d, r, c)
    {
      if c == 0 {
        assert d[r][0] == first[r];
        if r > 0 {
          assert d[r - 1][0] == first[r - 1];
        }
      } else {
        assert Recurrence(p, s, d, r, c);
      }
    }
  }

  /** One cell of `Earliest`, by induction on (position, machine). */
  lemma {:induction false} EarliestAt(p: seq<seq<int>>, s: seq<int>, d: seq<seq<int>>, e: seq<seq<int>>, r: nat, c: nat)
    requires Accepts(p, s) && IsBlockingSchedule(p, s, d) && Feasible(p, s, e)
    requires r < |p| && c < |s|
    ensures d[r][c] <= e[r][c]
    decreases c, r
  {
    assert FeasibleAt(p, s, e, r, c);
    if c == 0 {
      var first := Cumulative(p, s[0], |p|);
      assert d[r][0] == first[r];
      if r > 0 {
        assert d[r - 1][0] == first[r - 1];
        EarliestAt(p, s, d, e, r - 1, 0);
      }
    } else {
      assert Recurrence(p, s, d, r, c);
      if r == 0 {
        EarliestAt(p, s, d, e, 0, c - 1);
        EarliestAt(p, s, d, e, 1, c - 1);
      } else if r < |p| - 1 {
        EarliestAt(p, s, d, e, r - 1, c);
        EarliestAt(p, s, d, e, r + 1, c - 1);
      } else {
        EarliestAt(p, s, d, e, r - 1, c);
      }
    }
  }

  /** The recurrence yields the earliest possible departures: every feasible
      blocking timetable departs no earlier, cell by cell. */
  lemma Earliest(p: seq<seq<int>>, s: seq<int>, d: seq<seq<int>>, e: seq<seq<int>>)
    requires Accepts(p, s) && IsBlockingSchedule(p, s, d) && Feasible(p, s, e)
    ensures forall r, c :: 0 <= r < |p| && 0 <= c < |s| ==> d[r][c] <= e[r][c]
  {
    forall r, c | 0 <= r < |p| && 0 <= c < |s|
      ensures d[r][c] <= e[r][c]
    {
      EarliestAt(p, s, d, e, r, c);
    }
  }

  /** The recurrence has exactly one solution, so `Departures` is it. */
  lemma Unique(p: seq<seq<int>>, s: seq<int>, d1: seq<seq<int>>, d2: seq<seq<int>>)
    requires Accepts(p, s) && IsBlockingSchedule(p, s, d1) && IsBlockingSchedule(p, s, d2)
    ensures d1 == d2
  {
    ScheduleIsFeasible(p, s, d1);
    ScheduleIsFeasible(p, s, d2);
    Earliest(p, s, d1, d2);
    Earliest(p, s, d2, d1);
    forall r | 0 <= r < |p|
      ensures d1[r] == d2[r]
    {
    }
  }

  /** With non-negative times, each machine's departures never decrease from
      one position to the next. */
  lemma RowsNonDecreasing(p: seq<seq<int>>, s: seq<int>, d: seq<seq<int>>)
    requires Accepts(p, s) && NonNegative(p) && IsBlockingSchedule(p, s, d)
    ensures forall r, c :: 0 <= r < |p| && 1 <= c < |s| ==> d[r][c - 1] <= d[r][c]
  {
    ScheduleIsFeasible(p, s, d);
    forall r, c | 0 <= r < |p| && 1 <= c < |s|
      ensures d[r][c - 1] <= d[r][c]
    {
      if r < |p| - 1 {
        // blocked at least until the next machine released the previous job,
        // which it received from this machine
        assert FeasibleAt(p, s, d, r, c) && FeasibleAt(p, s, d, r + 1, c - 1);
        assert Time(p, r + 1, s[c - 1]) >= 0;
      } else {
        // the last machine receives the job when the one above releases it
        assert FeasibleAt(p, s, d, r, c) && FeasibleAt(p, s, d, r - 1, c);
        assert Time(p, r, s[c]) >= 0;
      }
    }
  }
}

=== FILE: datatable.dfy ===
/** `mdata::DataTable<T>` (include/datatable.h): a `rows` x `cols` table of
    values with one label per column. The table is a value here; each
    mutating member returns the updated table, and each exception becomes an
    `Err`. */
module Tables {
  import opened Results

  datatype DataTable<T> = DataTable(rows: nat, cols: nat, colLabels: seq<string>, cells: seq<seq<T>>)

  /** What every constructed table satisfies: both dimensions positive, one
      label per column and a full `rows` x `cols` block of cells. */
  predicate Valid<T>(t: DataTable<T>) {
    && t.rows > 0 && t.cols > 0
    && |t.colLabels| == t.cols
    && |t.cells| == t.rows
    && forall r :: 0 <= r < t.rows ==> |t.cells[r]| == t.cols
  }

  /** Same dimensions and labels. */
  predicate SameShape<T>(t: DataTable<T>, u: DataTable<T>) {
    t.rows == u.rows && t.cols == u.cols && t.colLabels == u.colLabels && |t.cells| == |u.cells|
  }

  /** The constructor (lines 60-72): a zero dimension is a length error, a
      failed matrix allocation (`allocOk == false`) is `bad_alloc`, and
      otherwise every label is the empty string. The cells of a fresh
      `new T[]` are unspecified; `fill` stands for them. */
  function Create<T>(rows: nat, cols: nat, allocOk: bool, fill: T): (r: Result<DataTable<T>>)
    ensures rows == 0 ==> r == Err(LengthError("Table rows must be greater than 0."))
    ensures rows > 0 && cols == 0 ==> r == Err(LengthError("Table columns must be greater than 0."))
    ensures rows > 0 && cols > 0 && !allocOk ==> r == Err(BadAlloc)
    ensures r.Ok? <==> rows > 0 && cols > 0 && allocOk
    ensures r.Ok? ==> Valid(r.value) && r.value.rows == rows && r.value.cols == cols
    ensures r.Ok? ==> forall c :: 0 <= c < cols ==> r.value.colLabels[c] == ""
  {
    if rows == 0 then Err(LengthError("Table rows must be greater than 0."))
    else if cols == 0 then Err(LengthError("Table columns must be greater than 0."))
    else if !allocOk then Err(BadAlloc)
    else Ok(DataTable(rows, cols, seq(cols, _ => ""), seq(rows, _ => seq(cols, _ => fill))))
  }

  /** `clearData`: every cell becomes `zero` (the `0` of `T`). */
  function ClearData<T>(t: DataTable<T>, zero: T): (u: DataTable<T>)
    requires Valid(t)
    ensures Valid(u) && SameShape(t, u)
    ensures forall r, c :: 0 <= r < u.rows && 0 <= c < u.cols ==> u.cells[r][c] == zero
  {
    t.(cells := seq(t.rows, _ => seq(t.cols, _ => zero)))
  }

  /** `getColLabel`: the label, or `out_of_range` for an index past the last column. */
  function GetColLabel<T>(t: DataTable<T>, colIndex: nat): (r: Result<string>)
    requires Valid(t)
    ensures r.Err? <==> colIndex >= t.cols
    ensures r.Err? ==> r.error == OutOfRange("Column index out of range")
    ensures r.Ok? ==> r.value == t.colLabels[colIndex]
  {
    if colIndex >= |t.colLabels| then Err(OutOfRange("Column index out of range"))
    else Ok(t.colLabels[colIndex])
  }

  /** `setColLabel`: replaces one label, or `out_of_range` for an index past
      the last column. */
  function SetColLabel<T>(t: DataTable<T>, colIndex: nat, newLabel: string): (r: Result<DataTable<T>>)
    requires Valid(t)
    ensures r.Err? <==> colIndex >= t.cols
    ensures r.Err? ==> r.error == OutOfRange("Column index out of range")
    ensures r.Ok? ==> Valid(r.value) && r.value.cells == t.cells
  {
    if colIndex >= |t.colLabels| then Err(OutOfRange("Column index out of range"))
    else Ok(t.(colLabels := t.colLabels[colIndex := newLabel]))
  }

  /** `getEntry` (lines 122-132). The `runtime_error` branch for an
      unallocated matrix cannot be taken: construction either allocates the
      matrix or throws. */
  function GetEntry<T>(t: DataTable<T>, row: nat, col: nat): (r: Result<T>)
    requires Valid(t)
    ensures r.Err? <==> row >= t.rows || col >= t.cols
    ensures row >= t.rows ==> r == Err(OutOfRange("Table row out of range"))
    ensures row < t.rows && col >= t.cols ==> r == Err(OutOfRange("Table column out of range"))
    ensures r.Ok? ==> r.value == t.cells[row][col]
  {
    if row >= t.rows then Err(OutOfRange("Table row out of range"))
    else if col >= t.cols then Err(OutOfRange("Table column out of range"))
    else Ok(t.cells[row][col])
  }

  /** `setEntry` (lines 141-151): same checks as `getEntry`, then one cell is written. */
  function SetEntry<T>(t: DataTable<T>, row: nat, col: nat, val: T): (r: Result<DataTable<T>>)
    requires Valid(t)
    ensures r.Err? <==> row >= t.rows || col >= t.cols
    ensures row >= t.rows ==> r == Err(OutOfRange("Table row out of range"))
    ensures row < t.rows && col >= t.cols ==> r == Err(OutOfRange("Table column out of range"))
    ensures r.Ok? ==> Valid(r.value) && SameShape(t, r.value)
  {
    if row >= t.rows then Err(OutOfRange("Table row out of range"))
    else if col >= t.cols then Err(OutOfRange("Table column out of range"))
    else Ok(t.(cells := t.cells[row := t.cells[row][col := val]]))
  }

  /** Set-then-get: the written cell reads back the new value and every other
      cell reads back what it held before. */
  lemma GetAfterSet<T>(t: DataTable<T>, row: nat, col: nat, val: T, r: nat, c: nat)
    requires Valid(t) && SetEntry(t, row, col, val).Ok?
    ensures var u := SetEntry(t, row, col, val).value;
      GetEntry(u, r, c) == if r == row && c == col then Ok(val) else GetEntry(t, r, c)
  {
  }

  /** Set-then-get on labels: the written label reads back the new text and
      every other label is unchanged. */
  lemma LabelAfterSet<T>(t: DataTable<T>, colIndex: nat, newLabel: string, c: nat)
    requires Valid(t) && SetColLabel(t, colIndex, newLabel).Ok?
    ensures var u := SetColLabel(t, colIndex, newLabel).value;
      GetColLabel(u, c) == if c == colIndex then Ok(newLabel) else GetColLabel(t, c)
  {
  }

  /** After `clearData` every in-range read yields zero. */
  lemma ReadAfterClear<T>(t: DataTable<T>, zero: T, r: nat, c: nat)
    requires Valid(t) && r < t.rows && c < t.cols
    ensures GetEntry(ClearData(t, zero), r, c) == Ok(zero)
  {
  }
}

=== FILE: experiment.dfy ===
/** The sequential parts of the batch driver `cs471::Experiment`
    (src/experiment.cpp): reading and clamping the test parameters, choosing
    the engine, the range of test files submitted, the status one task
    reports, and the status the whole run reports. The thread pool is left
    out; each task's status is an input, in submission order. */
module Experiment {
  import opened Results
  import opened Schedule
  import opened IntText
  import IniReader
  import Neh

  /** The section and keys `readTestParams` looks up (lines 12-19). */
  const TestSection := "test"
  const MinFileKey := "minTestFile"
  const MaxFileKey := "maxTestFile"
  const NumThreadsKey := "numThreads"
  const AlgorithmKey := "algorithm"
  const InputDirKey := "inputFilesDir"
  const ResultsFileKey := "resultsFile"
  const TimesFileKey := "timesFile"

  /** `cs471::TestParams` (include/experiment.h:11-20). */
  datatype TestParams = TestParams(
    minTestFile: int,
    maxTestFile: int,
    numThreads: int,
    algorithm: int,
    inputFilesDir: string,
    resultsFile: string,
    timesFile: string)

  /** The three engines `allocFlowShop` can create. */
  datatype Engine = Basic | Blocking | NoWait

  /** One submitted task: the input file name and the test index. */
  datatype Task = Task(inputFile: string, index: int)

  /** What a task does: return a status, or dereference a null solution. */
  datatype TaskResult = Status(code: int) | NullDereference

  /** `getEntryAs<int>`: the stored text, or the default written out with
      `std::to_string`, read back with `>>`. */
  function GetEntryAsInt(reader: IniReader.Reader, section: string, entry: string, defVal: int): (r: int)
    requires IsInt32(defVal)
    ensures IsInt32(r)
    ensures !IniReader.EntryExists(reader, section, entry) ==> r == defVal
    ensures IniReader.EntryExists(reader, section, entry) ==> r == ParseInt(reader.iniMap[section][entry])
  {
    ParseIntToString(defVal);
    ParseInt(IniReader.GetEntry(reader, section, entry, IntToString(defVal)))
  }

  /** `readTestParams` (lines 128-153): every option has a default, a thread
      count outside 1..16 becomes 1, an algorithm outside 0..2 becomes 0, and
      every other value is kept as read. */
  function ReadTestParams(reader: IniReader.Reader): (p: TestParams)
    ensures IsInt32(p.minTestFile) && IsInt32(p.maxTestFile)
    ensures 1 <= p.numThreads <= 16 && 0 <= p.algorithm <= 2
    ensures var n := GetEntryAsInt(reader, TestSection, NumThreadsKey, 1); 1 <= n <= 16 ==> p.numThreads == n
    ensures var n := GetEntryAsInt(reader, TestSection, NumThreadsKey, 1); !(1 <= n <= 16) ==> p.numThreads == 1
    ensures var a := GetEntryAsInt(reader, TestSection, AlgorithmKey, 0); 0 <= a <= 2 ==> p.algorithm == a
    ensures var a := GetEntryAsInt(reader, TestSection, AlgorithmKey, 0); !(0 <= a <= 2) ==> p.algorithm == 0
    ensures p.minTestFile == GetEntryAsInt(reader, TestSection, MinFileKey, 0)
    ensures p.maxTestFile == GetEntryAsInt(reader, TestSection, MaxFileKey, 120)
    ensures p.inputFilesDir == IniReader.GetEntry(reader, TestSection, InputDirKey, "")
    ensures p.resultsFile == IniReader.GetEntry(reader, TestSection, ResultsFileKey, "")
    ensures p.timesFile == IniReader.GetEntry(reader, TestSection, TimesFileKey, "")
    ensures !IniReader.EntryExists(reader, TestSection, MinFileKey) ==> p.minTestFile == 0
    ensures !IniReader.EntryExists(reader, TestSection, MaxFileKey) ==> p.maxTestFile == 120
    ensures !IniReader.EntryExists(reader, TestSection, NumThreadsKey) ==> p.numThreads == 1
    ensures !IniReader.EntryExists(reader, TestSection, AlgorithmKey) ==> p.algorithm == 0
    ensures !IniReader.EntryExists(reader, TestSection, InputDirKey) ==> p.inputFilesDir == ""
    ensures !IniReader.EntryExists(reader, TestSection, ResultsFileKey) ==> p.resultsFile == ""
    ensures !IniReader.EntryExists(reader, TestSection, TimesFileKey) ==> p.timesFile == ""
  {
    var threads := GetEntryAsInt(reader, TestSection, NumThreadsKey, 1);
    var algorithm := GetEntryAsInt(reader, TestSection, AlgorithmKey, 0);
    TestParams(
      GetEntryAsInt(reader, TestSection, MinFileKey, 0),
      GetEntryAsInt(reader, TestSection, MaxFileKey, 120),
      if threads < 1 || threads > 16 then 1 else threads,
      if algorithm < 0 || algorithm > 2 then 0 else algorithm,
      IniReader.GetEntry(reader, TestSection, InputDirKey, ""),
      IniReader.GetEntry(reader, TestSection, ResultsFileKey, ""),
      IniReader.GetEntry(reader, TestSection, TimesFileKey, ""))
  }

  /** A parameters file without a `[test]` section runs files 0 to 120 with
      one thread and the basic engine. */
  lemma DefaultParams(reader: IniReader.Reader)
    requires !IniReader.SectionExists(reader, TestSection)
    ensures ReadTestParams(reader) == TestParams(0, 120, 1, 0, "", "", "")
  {
  }

  /** `allocFlowShop` (lines 108-126): 0, 1 and 2 select the basic, blocking
      and no-wait engines; anything else gives null. */
  function AllocFlowShop(alg: int): (r: Option<Engine>)
    ensures r.None? <==> alg < 0 || alg > 2
    ensures alg == 0 ==> r == Some(Basic)
    ensures alg == 1 ==> r == Some(Blocking)
    ensures alg == 2 ==> r == Some(NoWait)
  {
    if alg == 0 then Some(Basic)
    else if alg == 1 then Some(Blocking)
    else if alg == 2 then Some(NoWait)
    else None
  }

  /** The clamped algorithm always selects an engine. */
  lemma ParamsAlwaysAllocate(reader: IniReader.Reader)
    ensures AllocFlowShop(ReadTestParams(reader).algorithm).Some?
  {
  }

  /** The tasks the loop of lines 57-63 submits for indices `i..maxTestFile`:
      one per index, named `<i>.txt`. */
  function SubmitFrom(i: int, maxTestFile: int): (ts: seq<Task>)
    ensures |ts| == if i <= maxTestFile then maxTestFile - i + 1 else 0
    ensures forall k :: 0 <= k < |ts| ==> ts[k] == Task(IntToString(i + k) + ".txt", i + k)
    decreases maxTestFile - i
  {
    if i > maxTestFile then []
    else
      var rest := SubmitFrom(i + 1, maxTestFile);
      var ts := [Task(IntToString(i) + ".txt", i)] + rest;
      assert forall k :: 1 <= k < |ts| ==> ts[k] == rest[k - 1];
      ts
  }

  /** All tasks `run` submits, in order: none when `minTestFile > maxTestFile`. */
  function Submitted(p: TestParams): (ts: seq<Task>)
    ensures |ts| == if p.minTestFile <= p.maxTestFile then p.maxTestFile - p.minTestFile + 1 else 0
    ensures forall k :: 0 <= k < |ts| ==> ts[k].index == p.minTestFile + k
  {
    SubmitFrom(p.minTestFile, p.maxTestFile)
  }

  /** Every index from `minTestFile` to `maxTestFile` is submitted, and no other. */
  lemma SubmittedIndices(p: TestParams, i: int)
    ensures (exists k :: 0 <= k < |Submitted(p)| && Submitted(p)[k].index == i)
      <==> p.minTestFile <= i <= p.maxTestFile
  {
    if p.minTestFile <= i <= p.maxTestFile {
      assert Submitted(p)[i - p.minTestFile].index == i;
    }
  }

  /** Lines 67-77: the statuses are awaited in submission order and the first
      non-zero one is returned; 0 when every task returned 0. */
  function FirstFailure(statuses: seq<int>): (r: int)
    ensures r == 0 <==> forall k :: 0 <= k < |statuses| ==> statuses[k] == 0
    ensures r != 0 ==> exists k :: 0 <= k < |statuses| && statuses[k] == r
                         && forall j :: 0 <= j < k ==> statuses[j] == 0
  {
    if |statuses| == 0 then 0
    else if statuses[0] != 0 then statuses[0]
    else
      var r := FirstFailure(statuses[1..]);
      assert forall k :: 1 <= k < |statuses| ==> statuses[k] == statuses[1..][k - 1];
      r
  }

  /** A status after the first failure never changes what `run` returns. */
  lemma FirstFailureIgnoresLater(statuses: seq<int>, more: seq<int>)
    requires FirstFailure(statuses) != 0
    ensures FirstFailure(statuses + more) == FirstFailure(statuses)
  {
    var k :| 0 <= k < |statuses| && statuses[k] == FirstFailure(statuses)
      && forall j :: 0 <= j < k ==> statuses[j] == 0;
    PrefixDecides(statuses + more, k);
    PrefixDecides(statuses, k);
  }

  /** With every status before position `k` zero and a non-zero one at `k`,
      the result is the one at `k`. */
  lemma {:induction false} PrefixDecides(statuses: seq<int>, k: nat)
    requires k < |statuses| && statuses[k] != 0
    requires forall j :: 0 <= j < k ==> statuses[j] == 0
    ensures FirstFailure(statuses) == statuses[k]
  {
    if k > 0 {
      PrefixDecides(statuses[1..], k - 1);
    }
  }

  /** `runNEHThreaded` (lines 80-106) as written, for the matrix `times` read
      from the task's input file, the engine's makespan `cost`, and whether
      NEH throws. Status 1 when no engine is created, 2 when NEH throws, and
      otherwise 0 after the solution's times are written out. With a single
      job NEH returns null, and line 101 dereferences it. */
  function RunNEHThreaded(p: TestParams, times: seq<seq<int>>, cost: seq<int> -> int, nehThrows: bool): (r: TaskResult)
    requires IsProcMatrix(times) && NumJobs(times) >= 1
    ensures AllocFlowShop(p.algorithm).None? ==> r == Status(1)
    ensures AllocFlowShop(p.algorithm).Some? && nehThrows ==> r == Status(2)
    ensures r == NullDereference <==> AllocFlowShop(p.algorithm).Some? && !nehThrows && NumJobs(times) == 1
    ensures r.Status? ==> r.code in {0, 1, 2}
  {
    if AllocFlowShop(p.algorithm).None? then Status(1)
    else if nehThrows then Status(2)
    else
      match Neh.Run(times, cost)
      case None => NullDereference
      case Some(_) => Status(0)
  }

  /** The null dereference is reachable: a one-job input file, a valid
      algorithm and an NEH run that does not throw. */
  lemma OneJobDereferencesNull(p: TestParams, cost: seq<int> -> int)
    requires 0 <= p.algorithm <= 2
    ensures RunNEHThreaded(p, [[5]], cost, false) == NullDereference
  {
  }

  /** `runNEHThreaded` with the corrected NEH, which returns the single job as
      its own solution: every task reports 0, 1 or 2. */
  function RunNEHThreadedCorrected(p: TestParams, times: seq<seq<int>>, cost: seq<int> -> int, nehThrows: bool): (r: int)
    requires IsProcMatrix(times) && NumJobs(times) >= 1
    ensures r == 1 <==> AllocFlowShop(p.algorithm).None?
    ensures r == 2 <==> AllocFlowShop(p.algorithm).Some? && nehThrows
    ensures r == 0 <==> AllocFlowShop(p.algorithm).Some? && !nehThrows
    ensures NumJobs(times) >= 2 ==> RunNEHThreaded(p, times, cost, nehThrows) == Status(r)
  {
    if AllocFlowShop(p.algorithm).None? then 1
    else if nehThrows then 2
    else
      var solution := Neh.RunCorrected(times, cost);
      0
  }

  /** With parameters from `readTestParams`, no task reports status 1. */
  lemma NoStatusOne(reader: IniReader.Reader, times: seq<seq<int>>, cost: seq<int> -> int, nehThrows: bool)
    requires IsProcMatrix(times) && NumJobs(times) >= 1
    ensures RunNEHThreadedCorrected(ReadTestParams(reader), times, cost, nehThrows) != 1
    ensures RunNEHThreaded(ReadTestParams(reader), times, cost, nehThrows) != Status(1)
  {
  }
}

=== FILE: inireader.dfy ===
/** The ini-file reader (src/inireader.cpp): a fold over the file's lines that
    records `key = value` entries per `[section]`. Reading the file is left to
    the caller, who passes its lines (or `None` when it cannot be opened). */
module IniReader {
  import opened Results
  import opened StringUtils

  /** Section name to (key to value). */
  type IniData = map<string, map<string, string>>

  /** The reader's state: the path last opened and the parsed data. */
  datatype Reader = Reader(file: string, iniMap: IniData)

  /** The fold state of `parseFile`: the current section and the data so far. */
  datatype ParseState = ParseState(section: string, data: IniData)

  /** The section's entries, or none when the section is not recorded. */
  function EntriesOf(data: IniData, section: string): map<string, string> {
    if section in data then data[section] else map[]
  }

  /** `std::string::find` for one character: the first position of `c`. */
  function Find(s: string, c: char): (r: Option<nat>)
    ensures r.None? ==> c !in s
    ensures r.Some? ==> r.value < |s| && s[r.value] == c && c !in s[..r.value]
  {
    if |s| == 0 then None
    else if s[0] == c then Some(0)
    else
      match Find(s[1..], c)
      case None => None
      case Some(k) =>
        assert s[..k + 1] == [s[0]] + s[1..][..k];
        Some(k + 1)
  }

  /** `entry` is a well-formed entry line: its first `=` is not the last
      character, `key` is the trimmed text before it and is not empty, and
      `value` is the trimmed text after it. */
  predicate IsEntry(entry: string, key: string, value: string) {
    exists pos :: 0 <= pos < |entry| - 1 && entry[pos] == '=' && '=' !in entry[..pos]
      && key == Trim(entry[..pos]) && key != "" && value == Trim(entry[pos + 1..])
  }

  /** Two positions that both hold the first `=` are the same position. */
  lemma FirstIsUnique(entry: string, p1: nat, p2: nat)
    requires p1 < |entry| && entry[p1] == '=' && '=' !in entry[..p1]
    requires p2 < |entry| && entry[p2] == '=' && '=' !in entry[..p2]
    ensures p1 == p2
  {
  }

  /** The split `parseEntry` (lines 144-172) performs: at the first `=`,
      both sides trimmed; `None` when there is no `=`, the `=` is the last
      character, or the key trims to nothing. */
  function Split(entry: string): (r: Option<(string, string)>)
    ensures r.Some? ==> r.value.0 != "" && IsTrimmed(r.value.0) && IsTrimmed(r.value.1)
  {
    match Find(entry, '=')
    case None => None
    case Some(pos) =>
      if pos >= |entry| - 1 || Trim(entry[..pos]) == "" then None
      else Some((Trim(entry[..pos]), Trim(entry[pos + 1..])))
  }

  /** The split succeeds exactly on well-formed entries, with their key and value. */
  lemma SplitIffEntry(entry: string, key: string, value: string)
    ensures Split(entry) == Some((key, value)) <==> IsEntry(entry, key, value)
  {
    if IsEntry(entry, key, value) {
      EntrySplits(entry, key, value);
    }
    if Split(entry) == Some((key, value)) {
      SplitIsEntry(entry, key, value);
    }
  }

  /** A well-formed entry splits into its key and value. */
  lemma EntrySplits(entry: string, key: string, value: string)
    requires IsEntry(entry, key, value)
    ensures Split(entry) == Some((key, value))
  {
    var q :| 0 <= q < |entry| - 1 && entry[q] == '=' && '=' !in entry[..q]
      && key == Trim(entry[..q]) && key != "" && value == Trim(entry[q + 1..]);
    var pos := Find(entry, '=').value;
    FirstIsUnique(entry, pos, q);
    SplitAt(entry, q);
  }

  /** The split at the first `=` when it is not last and the key is not blank. */
  lemma SplitAt(entry: string, pos: nat)
    requires Find(entry, '=') == Some(pos) && pos < |entry| - 1 && Trim(entry[..pos]) != ""
    ensures Split(entry) == Some((Trim(entry[..pos]), Trim(entry[pos + 1..])))
  {
  }

  /** What splits is a well-formed entry. */
  lemma SplitIsEntry(entry: string, key: string, value: string)
    requires Split(entry) == Some((key, value))
    ensures IsEntry(entry, key, value)
  {
    var pos := Find(entry, '=').value;
    assert 0 <= pos < |entry| - 1 && entry[pos] == '=' && '=' !in entry[..pos];
  }

  /** `parseEntry`: stores the split pair under `section`, or changes nothing.
      No section and no key is ever removed, and only `section` changes. */
  function ParseEntry(data: IniData, section: string, entry: string): (r: IniData)
    ensures data.Keys <= r.Keys <= data.Keys + {section}
    ensures forall s :: s in data ==> data[s].Keys <= r[s].Keys
    ensures forall s :: s != section ==> EntriesOf(r, s) == EntriesOf(data, s)
  {
    match Split(entry)
    case None => data
    case Some((key, value)) => data[section := EntriesOf(data, section)[key := value]]
  }

  /** `parseEntry` records a well-formed entry under `section`, overwriting an
      earlier value for the same key, and drops anything else. */
  lemma ParseEntrySpec(data: IniData, section: string, entry: string)
    ensures forall k, v :: IsEntry(entry, k, v) ==>
              ParseEntry(data, section, entry) == data[section := EntriesOf(data, section)[k := v]]
    ensures (forall k, v :: !IsEntry(entry, k, v)) ==> ParseEntry(data, section, entry) == data
  {
    forall k, v | IsEntry(entry, k, v)
      ensures Split(entry) == Some((k, v))
    {
      SplitIffEntry(entry, k, v);
    }
    if Split(entry).Some? {
      var (k, v) := Split(entry).value;
      SplitIffEntry(entry, k, v);
    }
  }

  /** A trimmed line opens a section: it starts with `[` and ends with `]`. */
  predicate IsHeader(line: string) {
    |line| > 0 && line[0] == '[' && line[|line| - 1] == ']'
  }

  /** A line `parseFile` skips: empty once trimmed, or a `#` comment. */
  predicate IsIgnored(rawLine: string) {
    var line := Trim(rawLine);
    line == [] || line[0] == '#'
  }

  /** The section a header line names: the trimmed text between the brackets. */
  function HeaderName(line: string): string
    requires IsHeader(line)
  {
    Trim(line[1..|line| - 1])
  }

  /** A raw line that, under a non-empty section, stores `key = value`. */
  predicate IsEntryLine(rawLine: string, key: string, value: string) {
    !IsIgnored(rawLine) && !IsHeader(Trim(rawLine)) && IsEntry(Trim(rawLine), key, value)
  }

  /** One iteration of the `parseFile` loop (lines 112-132). */
  function ParseLine(st: ParseState, rawLine: string): (r: ParseState)
    ensures IsIgnored(rawLine) ==> r == st
    ensures !IsIgnored(rawLine) && IsHeader(Trim(rawLine)) ==>
              r == ParseState(HeaderName(Trim(rawLine)), st.data)
    ensures st.section == "" ==> r.data == st.data
    ensures !IsIgnored(rawLine) && !IsHeader(Trim(rawLine)) ==> r.section == st.section
    ensures st.data.Keys <= r.data.Keys <= st.data.Keys + {st.section}
    ensures forall s :: s in st.data ==> st.data[s].Keys <= r.data[s].Keys
  {
    var line := Trim(rawLine);
    if line == [] || line[0] == '#' then st
    else if line[0] == '[' && line[|line| - 1] == ']' then ParseState(HeaderName(line), st.data)
    else if st.section != [] then ParseState(st.section, ParseEntry(st.data, st.section, line))
    else st
  }

  /** The fold over the lines, starting with no section and no data. Entries
      are only ever stored under a named section. */
  function Scan(lines: seq<string>): (r: ParseState)
    ensures "" !in r.data
  {
    if |lines| == 0 then ParseState("", map[])
    else ParseLine(Scan(lines[..|lines| - 1]), lines[|lines| - 1])
  }

  /** `openFile` / `parseFile`: the old data is discarded first, so a file that
      cannot be opened leaves the reader empty and reports failure. */
  function OpenFile(reader: Reader, path: string, contents: Option<seq<string>>): (r: (bool, Reader))
    ensures r.0 <==> contents.Some?
    ensures r.1.file == path
    ensures contents.None? ==> r.1.iniMap == map[]
    ensures contents.Some? ==> r.1.iniMap == Scan(contents.value).data
  {
    match contents
    case None => (false, Reader(path, map[]))
    case Some(lines) => (true, Reader(path, Scan(lines).data))
  }

  /** `sectionExists`. */
  function SectionExists(reader: Reader, section: string): bool {
    section in reader.iniMap
  }

  /** `entryExists`: false when the section is missing, else whether the key is. */
  function EntryExists(reader: Reader, section: string, entry: string): bool {
    section in reader.iniMap && entry in reader.iniMap[section]
  }

  /** `getEntry`: the stored value, or `defVal` when the section or key is missing. */
  function GetEntry(reader: Reader, section: string, entry: string, defVal: string): (r: string)
    ensures !EntryExists(reader, section, entry) ==> r == defVal
    ensures EntryExists(reader, section, entry) ==> r == reader.iniMap[section][entry]
  {
    if !EntryExists(reader, section, entry) then defVal
    else reader.iniMap[section][entry]
  }

  /** What every parse state satisfies: the current section name is trimmed,
      every recorded section has a non-empty trimmed name and at least one
      entry, and every key and every value is non-empty and trimmed. */
  predicate WellFormed(st: ParseState) {
    && IsTrimmed(st.section)
    && forall s :: s in st.data ==>
         && s != "" && IsTrimmed(s) && st.data[s] != map[]
         && forall k :: k in st.data[s] ==> k != "" && IsTrimmed(k) && st.data[s][k] != "" && IsTrimmed(st.data[s][k])
  }

  /** One line keeps the parse state well formed. */
  lemma ParseLineWellFormed(st: ParseState, rawLine: string)
    requires WellFormed(st)
    ensures WellFormed(ParseLine(st, rawLine))
  {
    var line := Trim(rawLine);
    if line != [] && line[0] != '#' && !IsHeader(line) && st.section != [] && Split(line).Some? {
      var (k, v) := Split(line).value;
      SplitValueNotBlank(line);
      StoreWellFormed(st, k, v);
      assert ParseLine(st, rawLine).data == st.data[st.section := EntriesOf(st.data, st.section)[k := v]];
    }
  }

  /** A trimmed line that splits has a non-empty value: the `=` is not the
      last character, and the last character is not whitespace. */
  lemma SplitValueNotBlank(line: string)
    requires IsTrimmed(line) && Split(line).Some?
    ensures Split(line).value.1 != ""
  {
    var pos := Find(line, '=').value;
    var rest := line[pos + 1..];
    assert rest[|rest| - 1] == line[|line| - 1];
    TrimEmptyIffAllSpace(rest);
  }

  /** Storing a split pair under the current, non-empty section keeps the
      state well formed. */
  lemma StoreWellFormed(st: ParseState, k: string, v: string)
    requires WellFormed(st) && st.section != "" && k != "" && IsTrimmed(k) && v != "" && IsTrimmed(v)
    ensures WellFormed(ParseState(st.section, st.data[st.section := EntriesOf(st.data, st.section)[k := v]]))
  {
    var data := st.data[st.section := EntriesOf(st.data, st.section)[k := v]];
    assert k in data[st.section];
  }

  /** Every parse of a file is well formed, so a section header with no valid
      entry under it is never recorded, and no key is empty. */
  lemma {:induction false} ScanWellFormed(lines: seq<string>)
    ensures WellFormed(Scan(lines))
  {
    if |lines| > 0 {
      ScanWellFormed(lines[..|lines| - 1]);
      ParseLineWellFormed(Scan(lines[..|lines| - 1]), lines[|lines| - 1]);
    }
  }

  /** A later assignment wins: after an entry line under a non-empty section,
      that key of that section reads back the line's value. */
  lemma LastAssignmentWins(lines: seq<string>, line: string, key: string, value: string)
    requires Scan(lines).section != "" && IsEntryLine(line, key, value)
    ensures var reader := Reader("", Scan(lines + [line]).data);
      GetEntry(reader, Scan(lines).section, key, "") == value
  {
    assert (lines + [line])[..|lines|] == lines;
    SplitIffEntry(Trim(line), key, value);
  }

  /** No line from position `n` on is an entry line for `key` read while
      `section` was current. */
  ghost predicate NoLaterEntry(lines: seq<string>, n: nat, section: string, key: string) {
    forall m, v :: n <= m < |lines| && Scan(lines[..m]).section == section ==>
      !IsEntryLine(lines[m], key, v)
  }

  /** One entry line under a named section stores its value under its key. */
  lemma EntryLineSets(st: ParseState, rawLine: string, key: string, value: string)
    requires st.section != "" && IsEntryLine(rawLine, key, value)
    ensures st.section in ParseLine(st, rawLine).data && key in ParseLine(st, rawLine).data[st.section]
    ensures ParseLine(st, rawLine).data[st.section][key] == value
  {
    SplitIffEntry(Trim(rawLine), key, value);
  }

  /** A line that is not an entry line for `key` read under `section` keeps
      the value stored under that key. */
  lemma OtherLineKeeps(st: ParseState, rawLine: string, section: string, key: string)
    requires section in st.data && key in st.data[section]
    requires forall v :: !(st.section == section && IsEntryLine(rawLine, key, v))
    ensures section in ParseLine(st, rawLine).data && key in ParseLine(st, rawLine).data[section]
    ensures ParseLine(st, rawLine).data[section][key] == st.data[section][key]
  {
    var line := Trim(rawLine);
    if !IsIgnored(rawLine) && !IsHeader(line) && st.section == section && Split(line).Some? {
      var (k, v) := Split(line).value;
      SplitIffEntry(line, k, v);
      assert IsEntryLine(rawLine, k, v);
    }
  }

  /** Values are kept until overwritten: a stored value survives every later
      line that is not an entry line for the same key under the same section. */
  lemma {:induction false} ValueStays(lines: seq<string>, n: nat, section: string, key: string, value: string)
    requires n <= |lines| && section in Scan(lines[..n]).data && key in Scan(lines[..n]).data[section]
    requires Scan(lines[..n]).data[section][key] == value
    requires NoLaterEntry(lines, n, section, key)
    ensures section in Scan(lines).data && key in Scan(lines).data[section]
    ensures Scan(lines).data[section][key] == value
    decreases |lines| - n
  {
    if n < |lines| {
      var st := Scan(lines[..n]);
      assert lines[..n + 1][..n] == lines[..n];
      assert Scan(lines[..n + 1]) == ParseLine(st, lines[n]);
      assert forall v :: !(st.section == section && IsEntryLine(lines[n], key, v));
      OtherLineKeeps(st, lines[n], section, key);
      ValueStays(lines, n + 1, section, key, value);
    } else {
      assert lines[..n] == lines;
    }
  }

  /** The last assignment wins: after the final entry line for a key under a
      section, `getEntry` returns that line's value, whatever follows. */
  lemma LatestAssignmentWins(lines: seq<string>, n: nat, key: string, value: string)
    requires n < |lines| && Scan(lines[..n]).section != "" && IsEntryLine(lines[n], key, value)
    requires NoLaterEntry(lines, n + 1, Scan(lines[..n]).section, key)
    ensures GetEntry(Reader("", Scan(lines).data), Scan(lines[..n]).section, key, "") == value
  {
    var section := Scan(lines[..n]).section;
    LatestValueStored(lines, n, section, key, value);
  }

  /** The value of the final entry line for a key under a section is the
      one stored at the end of the file. */
  lemma LatestValueStored(lines: seq<string>, n: nat, section: string, key: string, value: string)
    requires n < |lines| && section == Scan(lines[..n]).section && section != ""
    requires IsEntryLine(lines[n], key, value) && NoLaterEntry(lines, n + 1, section, key)
    ensures section in Scan(lines).data && key in Scan(lines).data[section]
    ensures Scan(lines).data[section][key] == value
  {
    var st := Scan(lines[..n]);
    assert lines[..n + 1][..n] == lines[..n];
    assert Scan(lines[..n + 1]) == ParseLine(st, lines[n]);
    EntryLineSets(st, lines[n], key, value);
    ValueStays(lines, n + 1, section, key, value);
  }

  /** Sections are never removed: a section recorded after some lines is
      still recorded after more lines. */
  lemma {:induction false} SectionsPersist(lines: seq<string>, n: nat, section: string)
    requires n <= |lines| && section in Scan(lines[..n]).data
    ensures section in Scan(lines).data
    decreases |lines| - n
  {
    if n < |lines| {
      assert lines[..n + 1][..n] == lines[..n];
      SectionsPersist(lines, n + 1, section);
    } else {
      assert lines[..n] == lines;
    }
  }

  /** Keys are never removed: a key recorded under a section after some lines
      is still recorded there after more lines. */
  lemma {:induction false} KeysPersist(lines: seq<string>, n: nat, section: string, key: string)
    requires n <= |lines| && section in Scan(lines[..n]).data && key in Scan(lines[..n]).data[section]
    ensures section in Scan(lines).data && key in Scan(lines).data[section]
    decreases |lines| - n
  {
    if n < |lines| {
      assert lines[..n + 1][..n] == lines[..n];
      KeysPersist(lines, n + 1, section, key);
    } else {
      assert lines[..n] == lines;
    }
  }

  /** A section exists once a valid entry line was read while it was current. */
  lemma EntryRecordsSection(lines: seq<string>, n: nat, k: string, v: string)
    requires n < |lines| && Scan(lines[..n]).section != "" && IsEntryLine(lines[n], k, v)
    ensures Scan(lines[..n]).section in Scan(lines).data
    ensures k in Scan(lines).data[Scan(lines[..n]).section]
  {
    var st := Scan(lines[..n]);
    var pre := lines[..n + 1];
    assert pre[..n] == lines[..n] && pre[n] == lines[n];
    assert Scan(pre) == ParseLine(st, lines[n]);
    EntryLineStores(st, lines[n], k, v);
    KeysPersist(lines, n + 1, st.section, k);
  }

  /** An entry line read under a non-empty section records that section. */
  lemma EntryLineStores(st: ParseState, rawLine: string, k: string, v: string)
    requires st.section != "" && IsEntryLine(rawLine, k, v)
    ensures st.section in ParseLine(st, rawLine).data
    ensures k in ParseLine(st, rawLine).data[st.section]
  {
    EntrySplits(Trim(rawLine), k, v);
  }

  /** A section only exists because some valid entry line was read while it
      was current. */
  lemma {:induction false} SectionHasEntry(lines: seq<string>, section: string)
    requires section in Scan(lines).data
    ensures exists n, k, v :: 0 <= n < |lines| && Scan(lines[..n]).section == section && section != ""
              && IsEntryLine(lines[n], k, v)
  {
    var m := |lines| - 1;
    var init := lines[..m];
    var st := Scan(init);
    if section in st.data {
      SectionHasEntry(init, section);
      var n, k, v :| 0 <= n < |init| && Scan(init[..n]).section == section && section != ""
        && IsEntryLine(init[n], k, v);
      assert init[..n] == lines[..n] && init[n] == lines[n];
    } else {
      // the last line added the section, so it stored an entry
      var line := Trim(lines[m]);
      assert Scan(lines) == ParseLine(st, lines[m]);
      LastLineAddsSection(st, lines[m], section);
      var (k, v) := Split(line).value;
      SplitIffEntry(line, k, v);
      assert IsEntryLine(lines[m], k, v);
    }
  }

  /** `sectionExists` holds after parsing exactly when some line stored a valid
      entry while that section was current. */
  lemma SectionExistsIffEntry(lines: seq<string>, section: string)
    ensures section in Scan(lines).data <==>
      exists n, k, v :: 0 <= n < |lines| && Scan(lines[..n]).section == section && section != ""
        && IsEntryLine(lines[n], k, v)
  {
    if section in Scan(lines).data {
      SectionHasEntry(lines, section);
    }
    forall n, k, v | 0 <= n < |lines| && Scan(lines[..n]).section == section && section != ""
      && IsEntryLine(lines[n], k, v)
      ensures section in Scan(lines).data
    {
      EntryRecordsSection(lines, n, k, v);
    }
  }

  /** A key is only recorded under a section because some valid entry line
      with that key was read while the section was current. */
  lemma {:induction false} KeyHasEntry(lines: seq<string>, section: string, key: string)
    requires section in Scan(lines).data && key in Scan(lines).data[section]
    ensures exists n, v :: 0 <= n < |lines| && Scan(lines[..n]).section == section && section != ""
              && IsEntryLine(lines[n], key, v)
  {
    var m := |lines| - 1;
    var init := lines[..m];
    var st := Scan(init);
    if section in st.data && key in st.data[section] {
      KeyHasEntry(init, section, key);
      var n, v :| 0 <= n < |init| && Scan(init[..n]).section == section && section != ""
        && IsEntryLine(init[n], key, v);
      assert init[..n] == lines[..n] && init[n] == lines[n];
    } else {
      // the last line stored the key
      var line := Trim(lines[m]);
      assert Scan(lines) == ParseLine(st, lines[m]);
      LastLineStores(st, lines[m], section, key);
      var (k, v) := Split(line).value;
      SplitIffEntry(line, k, v);
      assert IsEntryLine(lines[m], key, v);
    }
  }

  /** A section new after one line was added by a valid entry line read
      while it was current. */
  lemma LastLineAddsSection(st: ParseState, rawLine: string, section: string)
    requires section in ParseLine(st, rawLine).data && section !in st.data
    ensures !IsIgnored(rawLine) && !IsHeader(Trim(rawLine)) && Split(Trim(rawLine)).Some?
    ensures section == st.section
  {
  }

  /** A key new after one line is the key of a valid entry line read while
      its section was current. */
  lemma LastLineStores(st: ParseState, rawLine: string, section: string, key: string)
    requires section in ParseLine(st, rawLine).data && key in ParseLine(st, rawLine).data[section]
    requires !(section in st.data && key in st.data[section])
    ensures !IsIgnored(rawLine) && !IsHeader(Trim(rawLine)) && Split(Trim(rawLine)).Some?
    ensures section == st.section && key == Split(Trim(rawLine)).value.0
  {
  }

  /** `entryExists` holds after parsing exactly when some valid entry line
      with that key was read while the section was current. */
  lemma EntryExistsIffLine(reader: Reader, path: string, lines: seq<string>, section: string, key: string)
    ensures EntryExists(OpenFile(reader, path, Some(lines)).1, section, key) <==>
      exists n, v :: 0 <= n < |lines| && Scan(lines[..n]).section == section && section != ""
        && IsEntryLine(lines[n], key, v)
  {
    if EntryExists(OpenFile(reader, path, Some(lines)).1, section, key) {
      KeyHasEntry(lines, section, key);
    }
    forall n, v | 0 <= n < |lines| && Scan(lines[..n]).section == section && section != ""
      && IsEntryLine(lines[n], key, v)
      ensures section in Scan(lines).data && key in Scan(lines).data[section]
    {
      EntryRecordsSection(lines, n, key, v);
    }
  }
}

=== FILE: inttext.dfy ===
/** The two integer/text conversions the batch driver relies on:
    `std::to_string` for `int`, and `operator>>` of a string stream into an
    `int`, which `IniReader::getEntryAs<int>` uses (include/inireader.h:57-63).
    Both are library code; they are modelled here after the C++ standard's
    description of `num_get`, in the "C" locale. */
module IntText {
  import opened StringUtils

  const IntMin: int := -0x8000_0000
  const IntMax: int := 0x7fff_ffff

  /** A value a C++ `int` can hold. */
  predicate IsInt32(n: int) {
    IntMin <= n <= IntMax
  }

  predicate IsDigit(c: char) {
    '0' <= c <= '9'
  }

  predicate AllDigits(s: string) {
    forall i :: 0 <= i < |s| ==> IsDigit(s[i])
  }

  function DigitValue(c: char): nat
    requires IsDigit(c)
  {
    (c - '0') as nat
  }

  function DigitChar(d: nat): (c: char)
    requires d < 10
    ensures IsDigit(c) && DigitValue(c) == d
  {
    '0' + d as char
  }

  /** Decimal digits of a natural number, most significant first, without
      leading zeros. */
  function NatToString(n: nat): (s: string)
    ensures |s| >= 1 && AllDigits(s)
    ensures |s| > 1 ==> s[0] != '0'
  {
    if n < 10 then [DigitChar(n)] else NatToString(n / 10) + [DigitChar(n % 10)]
  }

  /** `std::to_string(int)`: a `-` sign for negative values, then the digits. */
  function IntToString(n: int): (s: string)
    ensures |s| >= 1 && (IsDigit(s[0]) || s[0] == '-')
  {
    if n < 0 then "-" + NatToString(-n) else NatToString(n)
  }

  /** The number a string of decimal digits denotes. */
  function ValueOf(s: string): nat
    requires AllDigits(s)
  {
    if |s| == 0 then 0 else ValueOf(s[..|s| - 1]) * 10 + DigitValue(s[|s| - 1])
  }

  /** The longest prefix made of decimal digits. */
  function DigitPrefix(s: string): (r: string)
    ensures AllDigits(r) && |r| <= |s| && r == s[..|r|]
    ensures |r| < |s| ==> !IsDigit(s[|r|])
  {
    if |s| == 0 || !IsDigit(s[0]) then [] else [s[0]] + DigitPrefix(s[1..])
  }

  /** `stream >> n` for an `int`: leading whitespace is skipped, one optional
      sign is read, then the longest run of digits. No digits after the
      optional sign is a failed extraction, which stores 0; a value out of range stores the nearest
      bound. Characters after the digits are left unread. */
  function ParseInt(s: string): (r: int)
    ensures IsInt32(r)
    ensures var t := LTrim(s);
      DigitPrefix(if |t| > 0 && (t[0] == '-' || t[0] == '+') then t[1..] else t) == [] ==> r == 0
    ensures r < 0 ==> |LTrim(s)| > 0 && LTrim(s)[0] == '-'
  {
    var t := LTrim(s);
    var signed := |t| > 0 && (t[0] == '-' || t[0] == '+');
    var body := if signed then t[1..] else t;
    var digits := DigitPrefix(body);
    if |digits| == 0 then 0
    else
      var v: int := if signed && t[0] == '-' then -(ValueOf(digits) as int) else ValueOf(digits) as int;
      if v < IntMin then IntMin else if v > IntMax then IntMax else v
  }

  /** `ValueOf` reads back what `NatToString` writes. */
  lemma {:induction false} ValueOfNatToString(n: nat)
    ensures ValueOf(NatToString(n)) == n
  {
    if n >= 10 {
      var s := NatToString(n);
      ValueOfNatToString(n / 10);
      assert s[..|s| - 1] == NatToString(n / 10);
    }
  }

  /** A string of digits is its own digit prefix. */
  lemma {:induction false} DigitPrefixOfDigits(s: string)
    requires AllDigits(s)
    ensures DigitPrefix(s) == s
  {
    if |s| > 0 {
      DigitPrefixOfDigits(s[1..]);
    }
  }

  /** Extraction reads back what `std::to_string` writes, for every `int`:
      so `getEntryAs<int>` returns its default when the entry is missing. */
  lemma ParseIntToString(n: int)
    requires IsInt32(n)
    ensures ParseInt(IntToString(n)) == n
  {
    var s := IntToString(n);
    assert LTrim(s) == s;
    var m := if n < 0 then -n else n;
    DigitPrefixOfDigits(NatToString(m));
    ValueOfNatToString(m);
    if n < 0 {
      assert s[1..] == NatToString(m);
    }
  }
}

=== FILE: mem.dfy ===
/** The array and matrix helpers of include/mem.h. A C++ `T*` that may be
    null is an `array?<T>`; a `T**` matrix is an array of row arrays. The
    source does not check that `size` fits the array; here that is a
    precondition, since an overrun is undefined behaviour there. */
module Mem {
  import opened Results

  /** `initArray`: the first `size` cells become `val`; a null array is left alone. */
  method InitArray<T>(a: array?<T>, size: nat, val: T)
    requires a != null ==> size <= a.Length
    modifies a
    ensures a != null ==> forall i :: 0 <= i < size ==> a[i] == val
    ensures a != null ==> forall i :: size <= i < a.Length ==> a[i] == old(a[i])
  {
    if a == null {
      return;
    }
    var i := 0;
    while i < size
      invariant i <= size
      invariant forall k :: 0 <= k < i ==> a[k] == val
      invariant forall k :: size <= k < a.Length ==> a[k] == old(a[k])
    {
      a[i] := val;
      i := i + 1;
    }
  }

  /** The rows a matrix operation touches. */
  function Rows<T>(m: array<array<T>>, rows: nat): set<array<T>>
    requires rows <= m.Length
    reads m
  {
    set i | 0 <= i < rows :: m[i]
  }

  /** `initMatrix`: every cell of the first `rows` x `cols` block becomes
      `val`; a null matrix is left alone. Rows that alias one another end
      with the same value either way. A `T*` row is never the `T**` matrix
      holding it; a generic Dafny type cannot see that, so it is stated.
      Rows are never null here: `initArray` returns early on a null row, but
      the only caller, `DataTable::clearData`, passes a matrix whose rows
      `allocMatrix` allocated. */
  method InitMatrix<T>(m: array?<array<T>>, rows: nat, cols: nat, val: T)
    requires m != null ==> rows <= m.Length
    requires m != null ==> forall i :: 0 <= i < rows ==> cols <= m[i].Length && m[i] as object != m
    modifies if m == null then {} else Rows(m, rows)
    ensures m != null ==> forall i, j :: 0 <= i < rows && 0 <= j < cols ==> m[i][j] == val
  {
    if m == null {
      return;
    }
    var i := 0;
    while i < rows
      invariant i <= rows
      invariant m[..] == old(m[..])
      invariant forall k, j :: 0 <= k < i && 0 <= j < cols ==> m[k][j] == val
    {
      InitArray(m[i], cols, val);
      i := i + 1;
    }
  }

  /** `copyArray`: the first `size` cells of `dest` receive those of `src`,
      which is not written to. */
  method CopyArray<T>(src: array<T>, dest: array<T>, size: nat)
    requires size <= src.Length && size <= dest.Length
    modifies dest
    ensures forall i :: 0 <= i < size ==> dest[i] == old(src[i])
    ensures src != dest ==> src[..] == old(src[..])
    ensures forall i :: size <= i < dest.Length ==> dest[i] == old(dest[i])
  {
    var i := 0;
    while i < size
      invariant i <= size
      invariant forall k :: 0 <= k < i ==> dest[k] == old(src[k])
      invariant forall k :: i <= k < size ==> src[k] == old(src[k])
      invariant src != dest ==> src[..] == old(src[..])
      invariant forall k :: size <= k < dest.Length ==> dest[k] == old(dest[k])
    {
      dest[i] := src[i];
      i := i + 1;
    }
  }

  /** `allocMatrix`: either null or `rows` distinct rows of `cols` cells.
      The heap is a parameter: `failAt` is `Some(0)` when allocating the array
      of rows fails, `Some(i + 1)` when allocating row `i` fails, and `None`
      (or an index past the last row) when memory suffices. The cells of a
      fresh row are unspecified in C++; here they are `T`'s default. */
  method AllocMatrix<T(0)>(rows: nat, cols: nat, failAt: Option<nat>) returns (m: array?<array<T>>)
    ensures m == null <==> failAt.Some? && failAt.value <= rows
    ensures m != null ==> m.Length == rows
    ensures m != null ==> forall i :: 0 <= i < rows ==> m[i].Length == cols
    ensures m != null ==> forall i, j :: 0 <= i < j < rows ==> m[i] != m[j]
  {
    if failAt == Some(0) {
      return null;
    }
    var made: seq<array<T>> := [];
    var i := 0;
    while i < rows
      invariant i <= rows && |made| == i
      invariant failAt.Some? ==> failAt.value > i
      invariant forall k :: 0 <= k < i ==> made[k].Length == cols
      invariant forall k, j :: 0 <= k < j < i ==> made[k] != made[j]
    {
      if failAt == Some(i + 1) {
        // the rows allocated so far are released and the caller gets null
        return null;
      }
      var row := new T[cols];
      made := made + [row];
      i := i + 1;
    }
    m := new array<T>[rows](k requires 0 <= k < rows => made[k]);
  }
}

=== FILE: neh.dfy ===
/** The NEH constructive heuristic (src/neh.cpp). Jobs are ordered by total
    processing time, largest first; then each job in turn is inserted at the
    position of the partial sequence that gives the smallest makespan.

    The makespan of a sequence (`calcObjective(...)->cmax`) is an abstract
    total function `cost`, so the search is modelled independently of the
    engine that evaluates it. */
module Neh {
  import opened Results
  import opened Schedule

  /** `fshop::JobTimePair`: a 1-based job number and its total processing time. */
  datatype JobTimePair = JobTimePair(job: int, time: int)

  /** One evaluated insertion: where the job went, the sequence that gave, and
      that sequence's makespan. */
  datatype Candidate = Candidate(position: nat, sequence: seq<int>, cmax: int)

  /** Sum of a job's processing times over machines `0..m-1`. */
  function MachineSum(p: seq<seq<int>>, job: int, m: nat): int
    requires IsProcMatrix(p) && 1 <= job <= NumJobs(p) && m <= |p|
  {
    if m == 0 then 0 else MachineSum(p, job, m - 1) + Time(p, m - 1, job)
  }

  /** A job's processing time summed over every machine. */
  function TotalTime(p: seq<seq<int>>, job: int): int
    requires IsProcMatrix(p) && 1 <= job <= NumJobs(p)
  {
    MachineSum(p, job, |p|)
  }

  /** The partial sum over machines `0..m-1` is the first job's departure
      from machine `m - 1` in the running-sum column both engines start from. */
  lemma {:induction false} SumIsCumulative(p: seq<seq<int>>, job: int, m: nat)
    requires IsProcMatrix(p) && 1 <= job <= NumJobs(p) && 1 <= m <= |p|
    ensures MachineSum(p, job, m) == Cumulative(p, job, m)[m - 1]
    decreases m
  {
    if m > 1 {
      SumIsCumulative(p, job, m - 1);
      var above := Cumulative(p, job, m - 1);
      var col := Cumulative(p, job, m);
      assert col[m - 2] == above[m - 2] by {
        assert col == above + [above[m - 2] + Time(p, m - 1, job)];
      }
    }
  }

  /** A job's total time is its departure from the last machine when it runs
      first in the sequence. */
  lemma TotalIsLastDeparture(p: seq<seq<int>>, job: int)
    requires IsProcMatrix(p) && 1 <= job <= NumJobs(p)
    ensures TotalTime(p, job) == Cumulative(p, job, |p|)[|p| - 1]
  {
    SumIsCumulative(p, job, |p|);
  }

  /** The job numbers of a list of pairs, in order. */
  function Jobs(l: seq<JobTimePair>): (js: seq<int>)
    ensures |js| == |l| && forall i :: 0 <= i < |l| ==> js[i] == l[i].job
  {
    seq(|l|, i requires 0 <= i < |l| => l[i].job)
  }

  /** The job numbers `1..n` in increasing order. */
  function Range(n: nat): (r: seq<int>)
    ensures |r| == n && forall i :: 0 <= i < n ==> r[i] == i + 1
  {
    seq(n, i => i + 1)
  }

  /** The list `makeInitialAvailJobList` builds before sorting (lines 43-52):
      jobs `1..numJobs` in order, each with its total time. */
  function InitialList(p: seq<seq<int>>): (l: seq<JobTimePair>)
    requires IsProcMatrix(p)
    ensures Jobs(l) == Range(NumJobs(p))
    ensures forall i :: 0 <= i < |l| ==> 1 <= l[i].job <= NumJobs(p) && l[i].time == TotalTime(p, l[i].job)
  {
    seq(NumJobs(p), i requires 0 <= i < NumJobs(p) => JobTimePair(i + 1, TotalTime(p, i + 1)))
  }

  /** Times never increase along the list. */
  predicate NonIncreasing(l: seq<JobTimePair>) {
    forall i, j :: 0 <= i < j < |l| ==> l[i].time >= l[j].time
  }

  /** The job numbers of a list with one more pair in front. */
  lemma JobsCons(x: JobTimePair, l: seq<JobTimePair>)
    ensures Jobs([x] + l) == [x.job] + Jobs(l)
  {
  }

  /** Every pair of `rest` has a time no greater than `bound`, when `rest`
      holds `l`'s pairs and `x`, all of them bounded. */
  lemma BoundedByHead(bound: int, x: JobTimePair, l: seq<JobTimePair>, rest: seq<JobTimePair>)
    requires x.time <= bound
    requires forall k :: 0 <= k < |l| ==> l[k].time <= bound
    requires forall j :: 0 <= j < |rest| ==> rest[j] == x || rest[j] in l
    ensures forall j :: 0 <= j < |rest| ==> rest[j].time <= bound
  {
    forall j | 0 <= j < |rest| ensures rest[j].time <= bound {
      if rest[j] != x {
        var k :| 0 <= k < |l| && l[k] == rest[j];
      }
    }
  }

  /** A pair whose time bounds a non-increasing list may go in front of it. */
  lemma ConsNonIncreasing(h: JobTimePair, l: seq<JobTimePair>)
    requires NonIncreasing(l)
    requires forall j :: 0 <= j < |l| ==> l[j].time <= h.time
    ensures NonIncreasing([h] + l)
  {
    var r := [h] + l;
    forall i, j | 0 <= i < j < |r| ensures r[i].time >= r[j].time {
      assert r[j] == l[j - 1];
      if i > 0 {
        assert r[i] == l[i - 1];
      }
    }
  }

  /** Puts `x` in front of the first pair whose time does not exceed its own. */
  function InsertByTime(x: JobTimePair, l: seq<JobTimePair>): (r: seq<JobTimePair>)
    requires NonIncreasing(l)
    ensures NonIncreasing(r)
    ensures forall j :: 0 <= j < |r| ==> r[j] == x || r[j] in l
    ensures multiset(Jobs(r)) == multiset(Jobs(l)) + multiset{x.job}
    ensures multiset(r) == multiset(l) + multiset{x}
  {
    if |l| == 0 then [x]
    else if x.time >= l[0].time then
      InsertInFront(x, l);
      [x] + l
    else
      var rest := InsertByTime(x, l[1..]);
      InsertBehindHead(x, l, rest);
      HeadKeepsPairs(x, l, rest);
      [l[0]] + rest
  }

  /** The base case of `InsertByTime`: a pair no smaller than the head goes
      in front. */
  lemma InsertInFront(x: JobTimePair, l: seq<JobTimePair>)
    requires |l| > 0 && NonIncreasing(l) && x.time >= l[0].time
    ensures NonIncreasing([x] + l)
    ensures forall j :: 0 <= j < |l| + 1 ==> ([x] + l)[j] == x || ([x] + l)[j] in l
    ensures multiset(Jobs([x] + l)) == multiset(Jobs(l)) + multiset{x.job}
    ensures multiset([x] + l) == multiset(l) + multiset{x}
  {
    ConsNonIncreasing(x, l);
    JobsCons(x, l);
  }

  /** The recursive case of `InsertByTime`: the head of `l` stays in front of
      the rest of the list with `x` inserted into it. */
  lemma InsertBehindHead(x: JobTimePair, l: seq<JobTimePair>, rest: seq<JobTimePair>)
    requires |l| > 0 && NonIncreasing(l) && x.time < l[0].time
    requires NonIncreasing(rest)
    requires forall j :: 0 <= j < |rest| ==> rest[j] == x || rest[j] in l[1..]
    requires multiset(Jobs(rest)) == multiset(Jobs(l[1..])) + multiset{x.job}
    ensures NonIncreasing([l[0]] + rest)
    ensures forall j :: 0 <= j < |rest| + 1 ==> ([l[0]] + rest)[j] == x || ([l[0]] + rest)[j] in l
    ensures multiset(Jobs([l[0]] + rest)) == multiset(Jobs(l)) + multiset{x.job}
  {
    HeadStaysFirst(x, l, rest);
    HeadKeepsMembers(x, l, rest);
    HeadKeepsJobs(x, l, rest);
  }

  /** The order part of `InsertBehindHead`. */
  lemma HeadStaysFirst(x: JobTimePair, l: seq<JobTimePair>, rest: seq<JobTimePair>)
    requires |l| > 0 && NonIncreasing(l) && x.time < l[0].time
    requires NonIncreasing(rest)
    requires forall j :: 0 <= j < |rest| ==> rest[j] == x || rest[j] in l[1..]
    ensures NonIncreasing([l[0]] + rest)
  {
    var tail := l[1..];
    forall k | 0 <= k < |tail| ensures tail[k].time <= l[0].time {
      assert tail[k] == l[k + 1];
    }
    BoundedByHead(l[0].time, x, tail, rest);
    ConsNonIncreasing(l[0], rest);
  }

  /** The membership part of `InsertBehindHead`. */
  lemma HeadKeepsMembers(x: JobTimePair, l: seq<JobTimePair>, rest: seq<JobTimePair>)
    requires |l| > 0
    requires forall j :: 0 <= j < |rest| ==> rest[j] == x || rest[j] in l[1..]
    ensures forall j :: 0 <= j < |rest| + 1 ==> ([l[0]] + rest)[j] == x || ([l[0]] + rest)[j] in l
  {
    var r := [l[0]] + rest;
    forall j | 0 <= j < |r| ensures r[j] == x || r[j] in l {
      if j > 0 {
        assert r[j] == rest[j - 1];
        if rest[j - 1] != x {
          var k :| 0 <= k < |l[1..]| && l[1..][k] == rest[j - 1];
          assert l[k + 1] == r[j];
        }
      }
    }
  }

  /** The pairs of the list with `x` inserted behind the head are those of
      `l` and `x`. */
  lemma HeadKeepsPairs(x: JobTimePair, l: seq<JobTimePair>, rest: seq<JobTimePair>)
    requires |l| > 0
    requires multiset(rest) == multiset(l[1..]) + multiset{x}
    ensures multiset([l[0]] + rest) == multiset(l) + multiset{x}
  {
    assert l == [l[0]] + l[1..];
  }

  /** The job-number part of `InsertBehindHead`. */
  lemma HeadKeepsJobs(x: JobTimePair, l: seq<JobTimePair>, rest: seq<JobTimePair>)
    requires |l| > 0
    requires multiset(Jobs(rest)) == multiset(Jobs(l[1..])) + multiset{x.job}
    ensures multiset(Jobs([l[0]] + rest)) == multiset(Jobs(l)) + multiset{x.job}
  {
    assert l == [l[0]] + l[1..];
    JobsCons(l[0], l[1..]);
    JobsCons(l[0], rest);
  }

  /** The sort of line 55: into non-increasing order of time. The source's
      comparator is `>=`, so it fixes no order among equal times; this
      insertion sort is one admissible order, and `RunWith` accepts any. */
  function SortByTime(l: seq<JobTimePair>): (r: seq<JobTimePair>)
    ensures NonIncreasing(r)
    ensures forall j :: 0 <= j < |r| ==> r[j] in l
    ensures multiset(Jobs(r)) == multiset(Jobs(l))
    ensures multiset(r) == multiset(l)
  {
    if |l| == 0 then []
    else
      var rest := SortByTime(l[1..]);
      var r := InsertByTime(l[0], rest);
      SortedCons(l, rest, r);
      r
  }

  /** The recursive case of `SortByTime`: inserting the head into the sorted
      tail gives the pairs and job numbers of the whole list. */
  lemma SortedCons(l: seq<JobTimePair>, rest: seq<JobTimePair>, r: seq<JobTimePair>)
    requires |l| > 0
    requires forall j :: 0 <= j < |rest| ==> rest[j] in l[1..]
    requires multiset(Jobs(rest)) == multiset(Jobs(l[1..])) && multiset(rest) == multiset(l[1..])
    requires forall j :: 0 <= j < |r| ==> r[j] == l[0] || r[j] in rest
    requires multiset(Jobs(r)) == multiset(Jobs(rest)) + multiset{l[0].job}
    requires multiset(r) == multiset(rest) + multiset{l[0]}
    ensures forall j :: 0 <= j < |r| ==> r[j] in l
    ensures multiset(Jobs(r)) == multiset(Jobs(l)) && multiset(r) == multiset(l)
  {
    assert l == [l[0]] + l[1..];
    JobsCons(l[0], l[1..]);
    forall j | 0 <= j < |r| ensures r[j] in l {
      assert r[j] in multiset(r);
    }
  }

  /** Every pair of the initial list holds a job number and its total time. */
  lemma InitialMember(p: seq<seq<int>>, init: seq<JobTimePair>, x: JobTimePair)
    requires IsProcMatrix(p) && init == InitialList(p) && x in init
    ensures 1 <= x.job <= NumJobs(p) && x.time == TotalTime(p, x.job)
  {
    var k :| 0 <= k < |init| && init[k] == x;
  }

  /** `makeInitialAvailJobList`: every job exactly once, with its total time,
      largest time first. */
  function MakeInitialAvailJobList(p: seq<seq<int>>): (l: seq<JobTimePair>)
    requires IsProcMatrix(p)
    ensures NonIncreasing(l) && |l| == NumJobs(p)
    ensures multiset(Jobs(l)) == multiset(Range(NumJobs(p)))
    ensures forall i :: 0 <= i < |l| ==> 1 <= l[i].job <= NumJobs(p) && l[i].time == TotalTime(p, l[i].job)
  {
    var init := InitialList(p);
    var l := SortByTime(init);
    forall i | 0 <= i < |l|
      ensures 1 <= l[i].job <= NumJobs(p) && l[i].time == TotalTime(p, l[i].job)
    {
      InitialMember(p, init, l[i]);
    }
    l
  }

  /** `base` with `job` inserted before position `i` (lines 68-72). */
  function InsertAt(base: seq<int>, i: nat, job: int): (s: seq<int>)
    requires i <= |base|
    ensures |s| == |base| + 1 && s[i] == job
    ensures forall j :: 0 <= j < i ==> s[j] == base[j]
    ensures forall j :: i < j < |s| ==> s[j] == base[j - 1]
  {
    base[..i] + [job] + base[i..]
  }

  /** Insertion adds exactly the inserted job. */
  lemma InsertAtMultiset(base: seq<int>, i: nat, job: int)
    requires i <= |base|
    ensures multiset(InsertAt(base, i, job)) == multiset(base) + multiset{job}
  {
    assert base == base[..i] + base[i..];
  }

  /** The `i`-th candidate of `bestPermutation`, evaluated. */
  function Evaluate(cost: seq<int> -> int, base: seq<int>, job: int, i: nat): Candidate
    requires i <= |base|
  {
    Candidate(i, InsertAt(base, i, job), cost(InsertAt(base, i, job)))
  }

  /** Each evaluated candidate is `base` grown by exactly `job`, at the
      position it names, priced by the objective. */
  lemma EvaluateIsInsertion(cost: seq<int> -> int, base: seq<int>, job: int, i: nat)
    requires i <= |base|
    ensures var c := Evaluate(cost, base, job, i);
      c.position == i && |c.sequence| == |base| + 1
      && multiset(c.sequence) == multiset(base) + multiset{job} && c.cmax == cost(c.sequence)
  {
    InsertAtMultiset(base, i, job);
  }

  /** The loop of `bestPermutation` after its first `n` iterations: the first
      candidate, then a later one only when it is strictly cheaper. */
  function BestOf(cost: seq<int> -> int, base: seq<int>, job: int, n: nat): (r: Candidate)
    requires 1 <= n <= |base| + 1
    ensures r.position < n && r == Evaluate(cost, base, job, r.position)
    ensures forall i :: 0 <= i < n ==> r.cmax <= Evaluate(cost, base, job, i).cmax
    ensures forall i :: 0 <= i < r.position ==> Evaluate(cost, base, job, i).cmax > r.cmax
  {
    if n == 1 then Evaluate(cost, base, job, 0)
    else
      var best := BestOf(cost, base, job, n - 1);
      var next := Evaluate(cost, base, job, n - 1);
      if next.cmax < best.cmax then next else best
  }

  /** `bestPermutation`: of the `|base| + 1` insertions of `job` into `base`,
      one of least makespan, and the earliest such on a tie. Its sequence is
      what `outBestSeq` ends holding. */
  function BestPermutation(cost: seq<int> -> int, base: seq<int>, job: int): (r: Candidate)
    ensures r.position <= |base|
    ensures r.sequence == InsertAt(base, r.position, job) && r.cmax == cost(r.sequence)
    ensures forall i :: 0 <= i <= |base| ==> r.cmax <= cost(InsertAt(base, i, job))
    ensures forall i :: 0 <= i < r.position ==> cost(InsertAt(base, i, job)) > r.cmax
  {
    var r := BestOf(cost, base, job, |base| + 1);
    assert forall i :: 0 <= i <= |base| ==> r.cmax <= cost(InsertAt(base, i, job)) by {
      forall i | 0 <= i <= |base| ensures r.cmax <= cost(InsertAt(base, i, job)) {
        assert r.cmax <= Evaluate(cost, base, job, i).cmax;
      }
    }
    assert forall i :: 0 <= i < r.position ==> cost(InsertAt(base, i, job)) > r.cmax by {
      forall i | 0 <= i < r.position ensures cost(InsertAt(base, i, job)) > r.cmax {
        assert Evaluate(cost, base, job, i).cmax > r.cmax;
      }
    }
    r
  }

  /** The sequence one `bestPermutation` round leaves: `base` with `job`
      inserted where it is cheapest. */
  function Step(cost: seq<int> -> int, base: seq<int>, job: int): (s: seq<int>)
    ensures |s| == |base| + 1
    ensures multiset(s) == multiset(base) + multiset{job}
  {
    var i := BestPermutation(cost, base, job).position;
    InsertAtMultiset(base, i, job);
    InsertAt(base, i, job)
  }

  /** Inserting the next job into a sequence holding the first `k` jobs of
      `jobs` gives a sequence holding the first `k + 1`. */
  lemma InsertNextJob(base: seq<int>, i: nat, jobs: seq<int>, k: nat)
    requires 1 <= k < |jobs| && i <= |base|
    requires multiset(base) == multiset(jobs[..k])
    ensures multiset(InsertAt(base, i, jobs[k])) == multiset(jobs[..k + 1])
  {
    InsertAtMultiset(base, i, jobs[k]);
    assert jobs[..k + 1] == jobs[..k] + [jobs[k]];
  }

  /** The partial sequence after the first `k` of the sorted job numbers
      `jobs`: the first job alone, then one `bestPermutation` round per
      further job (lines 17-30). */
  function Partial(cost: seq<int> -> int, jobs: seq<int>, k: nat): (s: seq<int>)
    requires 1 <= k <= |jobs|
    ensures |s| == k
    ensures multiset(s) == multiset(jobs[..k])
  {
    if k == 1 then
      assert jobs[..1] == [jobs[0]];
      [jobs[0]]
    else
      var base := Partial(cost, jobs, k - 1);
      assert jobs[..k] == jobs[..k - 1] + [jobs[k - 1]];
      Step(cost, base, jobs[k - 1])
  }

  /** `run` for a given sorted list: the solution of the last
      `bestPermutation` round, or null when there was no round because the
      list holds a single job. */
  function RunWith(cost: seq<int> -> int, order: seq<JobTimePair>): (r: Option<Candidate>)
    requires |order| >= 1
    ensures r.None? <==> |order| == 1
    ensures r.Some? ==> multiset(r.value.sequence) == multiset(Jobs(order))
    ensures r.Some? ==> r.value.cmax == cost(r.value.sequence)
    ensures r.Some? ==> LastRound(cost, Jobs(order), r.value)
  {
    if |order| == 1 then None
    else Some(LastBest(cost, Jobs(order)))
  }

  /** The solution of the last round: `bestPermutation` of the last job
      against the partial sequence of all the others. */
  function LastBest(cost: seq<int> -> int, jobs: seq<int>): (c: Candidate)
    requires |jobs| >= 2
    ensures multiset(c.sequence) == multiset(jobs)
    ensures c.cmax == cost(c.sequence)
    ensures LastRound(cost, jobs, c)
  {
    var k := |jobs| - 1;
    var base := Partial(cost, jobs, k);
    var best := BestPermutation(cost, base, jobs[k]);
    InsertNextJob(base, best.position, jobs, k);
    assert jobs[..k + 1] == jobs;
    best
  }

  /** `c` is the outcome of the last round over `jobs`: the last job inserted
      into the partial sequence of all the others at a cheapest position, the
      earliest such position on a tie. */
  predicate LastRound(cost: seq<int> -> int, jobs: seq<int>, c: Candidate)
    requires |jobs| >= 2
  {
    var k := |jobs| - 1;
    var base := Partial(cost, jobs, k);
    && c.position <= k
    && c.sequence == InsertAt(base, c.position, jobs[k])
    && (forall i :: 0 <= i <= k ==> c.cmax <= cost(InsertAt(base, i, jobs[k])))
    && (forall i :: 0 <= i < c.position ==> cost(InsertAt(base, i, jobs[k])) > c.cmax)
  }

  /** `NEH::run`: an empty job list is not accepted (its `front()` is
      undefined behaviour); one job gives null; otherwise a full sequence. */
  function Run(p: seq<seq<int>>, cost: seq<int> -> int): (r: Option<Candidate>)
    requires IsProcMatrix(p) && NumJobs(p) >= 1
    ensures r.None? <==> NumJobs(p) == 1
    ensures r.Some? ==> multiset(r.value.sequence) == multiset(Range(NumJobs(p)))
    ensures r.Some? ==> r.value.cmax == cost(r.value.sequence)
    ensures r.Some? ==> LastRound(cost, Jobs(MakeInitialAvailJobList(p)), r.value)
  {
    var order := MakeInitialAvailJobList(p);
    RunWith(cost, order)
  }

  /** `run` as evidently intended for a single job: that job alone is the
      best (and only) sequence, where the source returns null. */
  function RunCorrected(p: seq<seq<int>>, cost: seq<int> -> int): (r: Candidate)
    requires IsProcMatrix(p) && NumJobs(p) >= 1
    ensures multiset(r.sequence) == multiset(Range(NumJobs(p)))
    ensures r.cmax == cost(r.sequence)
    ensures NumJobs(p) >= 2 ==> Run(p, cost) == Some(r)
  {
    match Run(p, cost)
    case Some(c) => c
    case None =>
      assert Range(1) == [1];
      Candidate(0, [1], cost([1]))
  }

  /** Each round grows the partial sequence by exactly the next job of the
      sorted list, inserted at some position and leaving the rest in order. */
  lemma GrowsByOne(cost: seq<int> -> int, jobs: seq<int>, k: nat)
    requires 1 <= k < |jobs|
    ensures exists i :: 0 <= i <= k && Partial(cost, jobs, k + 1) == InsertAt(Partial(cost, jobs, k), i, jobs[k])
              && CheapestAt(cost, Partial(cost, jobs, k), jobs[k], i)
  {
    var base := Partial(cost, jobs, k);
    var best := BestPermutation(cost, base, jobs[k]);
    assert Partial(cost, jobs, k + 1) == Step(cost, base, jobs[k]) == InsertAt(base, best.position, jobs[k]);
    BestIsCheapest(cost, base, jobs[k]);
  }

  /** The position `bestPermutation` picks is a cheapest one. */
  lemma BestIsCheapest(cost: seq<int> -> int, base: seq<int>, job: int)
    ensures CheapestAt(cost, base, job, BestPermutation(cost, base, job).position)
  {
  }

  /** Inserting `job` at position `i` of `base` costs no more than at any
      other position, and strictly less than at every earlier one. */
  predicate CheapestAt(cost: seq<int> -> int, base: seq<int>, job: int, i: nat)
    requires i <= |base|
  {
    && (forall j :: 0 <= j <= |base| ==> cost(InsertAt(base, i, job)) <= cost(InsertAt(base, j, job)))
    && (forall j :: 0 <= j < i ==> cost(InsertAt(base, j, job)) > cost(InsertAt(base, i, job)))
  }

  /** Every sequence handed to the objective in round `k` holds the first
      `k + 1` sorted jobs, so it is never longer than the job list. */
  lemma CandidatesValid(cost: seq<int> -> int, jobs: seq<int>, k: nat, i: nat)
    requires 1 <= k < |jobs| && i <= k
    ensures var c := InsertAt(Partial(cost, jobs, k), i, jobs[k]);
      |c| == k + 1 <= |jobs| && multiset(c) == multiset(jobs[..k + 1])
  {
    var base := Partial(cost, jobs, k);
    InsertNextJob(base, i, jobs, k);
  }

  /** The returned solution's sequence is the final partial sequence. */
  lemma RunIsLastPartial(cost: seq<int> -> int, order: seq<JobTimePair>)
    requires |order| >= 2
    ensures RunWith(cost, order).Some?
    ensures RunWith(cost, order).value.sequence == Partial(cost, Jobs(order), |order|)
  {
    var jobs := Jobs(order);
    var k := |order| - 1;
    var base := Partial(cost, jobs, k);
    var best := BestPermutation(cost, base, jobs[k]);
    assert LastBest(cost, jobs) == best;
    assert Partial(cost, jobs, k + 1) == Step(cost, base, jobs[k]) == best.sequence;
  }

  /** For two or more jobs, `run` yields a permutation of `1..numJobs`: a
      sequence both engines accept. */
  lemma RunYieldsJobSeq(p: seq<seq<int>>, cost: seq<int> -> int)
    requires IsProcMatrix(p) && NumJobs(p) >= 2
    ensures Run(p, cost).Some?
    ensures var s := Run(p, cost).value.sequence;
      |s| == NumJobs(p) && IsJobSeq(p, s) && forall i, j :: 0 <= i < j < |s| ==> s[i] != s[j]
  {
    var r := Run(p, cost);
    PermutationIsJobSeq(p, r.value.sequence);
  }

  /** A permutation of `1..numJobs` is a job sequence that repeats nothing. */
  lemma PermutationIsJobSeq(p: seq<seq<int>>, s: seq<int>)
    requires IsProcMatrix(p) && NumJobs(p) >= 1 && multiset(s) == multiset(Range(NumJobs(p)))
    ensures |s| == NumJobs(p) && IsJobSeq(p, s) && forall i, j :: 0 <= i < j < |s| ==> s[i] != s[j]
  {
    PermutationOfRange(s, NumJobs(p));
  }

  /** A sequence with the multiset of `1..n` has length `n`, holds only
      `1..n`, and repeats nothing. */
  lemma PermutationOfRange(s: seq<int>, n: nat)
    requires multiset(s) == multiset(Range(n))
    ensures |s| == n
    ensures forall c :: 0 <= c < |s| ==> 1 <= s[c] <= n
    ensures forall i, j :: 0 <= i < j < |s| ==> s[i] != s[j]
  {
    var range := Range(n);
    assert |s| == |range| by {
      assert |multiset(s)| == |multiset(range)|;
    }
    forall c | 0 <= c < |s| ensures 1 <= s[c] <= n {
      assert s[c] in multiset(range);
    }
    forall i, j | 0 <= i < j < |s| ensures s[i] != s[j] {
      if s[i] == s[j] {
        assert multiset(s)[s[i]] >= 2 by {
          assert s == s[..i] + [s[i]] + s[i + 1..j] + [s[j]] + s[j + 1..];
        }
        RangeCountsOnce(n, s[i]);
      }
    }
  }

  /** Each of `1..n` occurs in `Range(n)` exactly once. */
  lemma {:induction false} RangeCountsOnce(n: nat, j: int)
    requires 1 <= j <= n
    ensures multiset(Range(n))[j] == 1
  {
    if n > j {
      assert Range(n) == Range(n - 1) + [n];
      RangeCountsOnce(n - 1, j);
    } else {
      assert Range(n) == Range(n - 1) + [n];
      assert j !in Range(n - 1);
    }
  }
}

=== FILE: nowait.dfy ===
/** The no-wait flow shop: once a job starts it passes through all machines
    without waiting. When a job would reach machine `r` before that machine has
    released the previous job, the departures already computed for the job on
    machines 0..r-1 are pushed back by the deficit, so the job simply starts
    later. The engine fills a departure-time matrix `d[machine][position]`. */
module NoWait {
  import opened Schedule
  import Blocking

  /** What the two engine hooks need: a well-formed matrix and a valid sequence. */
  predicate Accepts(p: seq<seq<int>>, s: seq<int>) {
    IsProcMatrix(p) && IsJobSeq(p, s)
  }

  /** Adds `diff` to every departure already computed in a column (the
      backward loop of flowshopnowait.cpp lines 43-44). */
  function Shift(col: seq<int>, diff: int): (r: seq<int>)
    ensures |r| == |col|
    ensures forall k :: 0 <= k < |col| ==> r[k] == col[k] + diff
  {
    seq(|col|, k requires 0 <= k < |col| => col[k] + diff)
  }

  /** One round of the row loop (lines 37-49) for machine `r = |cur|`: when the
      job would leave machine r-1 before machine r is free, every earlier
      departure in the column moves later by the same amount; then the job's
      departure from machine r follows with no waiting. */
  function PlaceRow(p: seq<seq<int>>, prev: seq<int>, job: int, cur: seq<int>): (next: seq<int>)
    requires IsProcMatrix(p) && |prev| == |p| && 1 <= job <= NumJobs(p)
    requires 1 <= |cur| < |p|
    ensures |next| == |cur| + 1
    ensures next[|cur| - 1] == Max(cur[|cur| - 1], prev[|cur|])
    ensures forall k :: 0 <= k < |cur| ==> next[k] - cur[k] == next[|cur| - 1] - cur[|cur| - 1]
    ensures next[|cur|] == next[|cur| - 1] + Time(p, |cur|, job)
  {
    var r := |cur|;
    var d1 := cur[r - 1];
    var d2 := prev[r];
    var shifted := if d1 < d2 then Shift(cur, d2 - d1) else cur;
    shifted + [shifted[r - 1] + Time(p, r, job)]
  }

  /** Rows 0..n-1 of a column for `job` are a valid no-wait placement after
      the previous job's departures `prev`: no waiting between machines, each
      machine free on arrival, and the job started as early as those allow
      (either right after machine 0 released the previous job, or exactly
      when some machine r became free). */
  predicate ColumnOk(p: seq<seq<int>>, prev: seq<int>, job: int, col: seq<int>)
    requires IsProcMatrix(p) && |prev| == |p| && 1 <= job <= NumJobs(p)
    requires 1 <= |col| <= |p|
  {
    && col[0] >= prev[0] + Time(p, 0, job)
    && (forall r :: 1 <= r < |col| ==> col[r] == col[r - 1] + Time(p, r, job))
    && (forall r :: 1 <= r < |col| ==> col[r - 1] >= prev[r])
    && (col[0] == prev[0] + Time(p, 0, job) || exists r :: 1 <= r < |col| && col[r - 1] == prev[r])
  }

  /** One round of the row loop keeps the column a valid placement. */
  lemma PlaceRowOk(p: seq<seq<int>>, prev: seq<int>, job: int, cur: seq<int>)
    requires IsProcMatrix(p) && |prev| == |p| && 1 <= job <= NumJobs(p)
    requires 1 <= |cur| < |p| && ColumnOk(p, prev, job, cur)
    ensures ColumnOk(p, prev, job, PlaceRow(p, prev, job, cur))
  {
    var next := PlaceRow(p, prev, job, cur);
    PlaceRowChain(p, prev, job, cur, next);
    PlaceRowFree(p, prev, job, cur, next);
    var r := |cur|;
    if next[r - 1] > cur[r - 1] {
      // the job was pushed back exactly until machine r became free
      assert next[r - 1] == prev[r];
    } else if cur[0] != prev[0] + Time(p, 0, job) {
      var w :| 1 <= w < r && cur[w - 1] == prev[w];
      assert next[w - 1] == cur[w - 1];
    }
  }

  /** After one round, consecutive machines still follow with no waiting. */
  lemma PlaceRowChain(p: seq<seq<int>>, prev: seq<int>, job: int, cur: seq<int>, next: seq<int>)
    requires IsProcMatrix(p) && |prev| == |p| && 1 <= job <= NumJobs(p)
    requires 1 <= |cur| < |p| && ColumnOk(p, prev, job, cur)
    requires next == PlaceRow(p, prev, job, cur)
    ensures next[0] >= prev[0] + Time(p, 0, job)
    ensures forall k :: 1 <= k < |next| ==> next[k] == next[k - 1] + Time(p, k, job)
  {
    var r := |cur|;
    var delta := next[r - 1] - cur[r - 1];
    assert next[0] == cur[0] + delta;
    forall k | 1 <= k < |next|
      ensures next[k] == next[k - 1] + Time(p, k, job)
    {
      if k < r {
        assert next[k] == cur[k] + delta && next[k - 1] == cur[k - 1] + delta;
      }
    }
  }

  /** After one round, every machine is still free when the job arrives. */
  lemma PlaceRowFree(p: seq<seq<int>>, prev: seq<int>, job: int, cur: seq<int>, next: seq<int>)
    requires IsProcMatrix(p) && |prev| == |p| && 1 <= job <= NumJobs(p)
    requires 1 <= |cur| < |p| && ColumnOk(p, prev, job, cur)
    requires next == PlaceRow(p, prev, job, cur)
    ensures forall k :: 1 <= k < |next| ==> next[k - 1] >= prev[k]
  {
    var r := |cur|;
    var delta := next[r - 1] - cur[r - 1];
    forall k | 1 <= k < |next|
      ensures next[k - 1] >= prev[k]
    {
      if k < r {
        assert next[k - 1] == cur[k - 1] + delta;
      }
    }
  }

  /** Runs the row loop from machine |cur| to the last machine. */
  function PlaceRows(p: seq<seq<int>>, prev: seq<int>, job: int, cur: seq<int>): (col: seq<int>)
    requires IsProcMatrix(p) && |prev| == |p| && 1 <= job <= NumJobs(p)
    requires 1 <= |cur| <= |p| && ColumnOk(p, prev, job, cur)
    ensures |col| == |p| && ColumnOk(p, prev, job, col)
    decreases |p| - |cur|
  {
    if |cur| == |p| then cur
    else
      var next := PlaceRow(p, prev, job, cur);
      PlaceRowOk(p, prev, job, cur);
      PlaceRows(p, prev, job, next)
  }

  /** Departures of the job at a later position, given the departures `prev`
      of the job before it (flowshopnowait.cpp lines 33-50). */
  function NextColumn(p: seq<seq<int>>, prev: seq<int>, job: int): (col: seq<int>)
    requires IsProcMatrix(p) && |prev| == |p| && 1 <= job <= NumJobs(p)
    ensures |col| == |p| && ColumnOk(p, prev, job, col)
  {
    PlaceRows(p, prev, job, [prev[0] + Time(p, 0, job)])
  }

  /** The first `n` columns: `initTimeMatrix` for column 0, then `n - 1`
      rounds of the outer loop of `calcTimeMatrix`. */
  function Columns(p: seq<seq<int>>, s: seq<int>, n: nat): (cs: seq<seq<int>>)
    requires Accepts(p, s) && 1 <= n <= |s|
    ensures |cs| == n
    ensures forall c :: 0 <= c < n ==> |cs[c]| == |p|
    ensures cs[0] == Cumulative(p, s[0], |p|)
    ensures forall c :: 1 <= c < n ==> cs[c] == NextColumn(p, cs[c - 1], s[c])
  {
    if n == 1 then [Cumulative(p, s[0], |p|)]
    else
      var before := Columns(p, s, n - 1);
      before + [NextColumn(p, before[n - 2], s[n - 1])]
  }

  /** The no-wait rules for position `c >= 1` of a row-major departure matrix. */
  predicate PlacedAt(p: seq<seq<int>>, s: seq<int>, d: seq<seq<int>>, c: nat)
    requires Accepts(p, s) && IsTimeMatrix(d, |p|, |s|) && 1 <= c < |s|
  {
    && d[0][c] >= d[0][c - 1] + Time(p, 0, s[c])
    && (forall r :: 1 <= r < |p| ==> d[r][c] == d[r - 1][c] + Time(p, r, s[c]))
    && (forall r :: 1 <= r < |p| ==> d[r - 1][c] >= d[r][c - 1])
    && (d[0][c] == d[0][c - 1] + Time(p, 0, s[c]) || exists r :: 1 <= r < |p| && d[r - 1][c] == d[r][c - 1])
  }

  /** A no-wait departure matrix: column 0 is the first job's running sum and
      every later column is placed as early as the no-wait rules allow. */
  predicate IsNoWaitSchedule(p: seq<seq<int>>, s: seq<int>, d: seq<seq<int>>)
    requires Accepts(p, s)
  {
    && IsTimeMatrix(d, |p|, |s|)
    && FirstColumnOk(p, s, d)
    && forall c :: 1 <= c < |s| ==> PlacedAt(p, s, d, c)
  }

  /** The departure matrix the no-wait engine computes for sequence `s`. */
  function Departures(p: seq<seq<int>>, s: seq<int>): (d: seq<seq<int>>)
    requires Accepts(p, s)
    ensures IsNoWaitSchedule(p, s, d)
  {
    var cs := Columns(p, s, |s|);
    var d := Transpose(cs, |p|);
    assert FirstColumnOk(p, s, d);
    assert forall c :: 1 <= c < |s| ==> PlacedAt(p, s, d, c) by {
      forall c | 1 <= c < |s|
        ensures PlacedAt(p, s, d, c)
      {
        assert cs[c] == NextColumn(p, cs[c - 1], s[c]);
        assert ColumnOk(p, cs[c - 1], s[c], cs[c]);
        if d[0][c] != d[0][c - 1] + Time(p, 0, s[c]) {
          var w :| 1 <= w < |p| && cs[c][w - 1] == cs[c - 1][w];
          assert d[w - 1][c] == d[w][c - 1];
        }
      }
    }
    d
  }

  /** The constraints any no-wait timetable must respect. */
  predicate Feasible(p: seq<seq<int>>, s: seq<int>, e: seq<seq<int>>)
    requires Accepts(p, s)
  {
    && IsTimeMatrix(e, |p|, |s|)
    && e[0][0] >= Time(p, 0, s[0])
    && (forall r, c :: 1 <= r < |p| && 0 <= c < |s| ==> NoWaitAt(p, s, e, r, c))
    && (forall c :: 1 <= c < |s| ==> e[0][c] >= e[0][c - 1] + Time(p, 0, s[c]))
    && (forall r, c :: 1 <= r < |p| && 1 <= c < |s| ==> FreeOnArrival(p, s, e, r, c))
  }

  /** The job at position `c` leaves machine `r` exactly its processing time
      after leaving machine `r - 1`. */
  predicate NoWaitAt(p: seq<seq<int>>, s: seq<int>, e: seq<seq<int>>, r: nat, c: nat)
    requires Accepts(p, s) && IsTimeMatrix(e, |p|, |s|) && 1 <= r < |p| && c < |s|
  {
    e[r][c] == e[r - 1][c] + Time(p, r, s[c])
  }

  /** The job at position `c` reaches machine `r` no earlier than the
      machine has released the job at position `c - 1`. */
  predicate FreeOnArrival(p: seq<seq<int>>, s: seq<int>, e: seq<seq<int>>, r: nat, c: nat)
    requires Accepts(p, s) && IsTimeMatrix(e, |p|, |s|) && 1 <= r < |p| && 1 <= c < |s|
  {
    e[r - 1][c] >= e[r][c - 1]
  }

  /** The computed departures respect every no-wait constraint. */
  lemma ScheduleIsFeasible(p: seq<seq<int>>, s: seq<int>, d: seq<seq<int>>)
    requires Accepts(p, s) && IsNoWaitSchedule(p, s, d)
    ensures Feasible(p, s, d)
  {
    var first := Cumulative(p, s[0], |p|);
    assert d[0][0] == first[0];
    forall r, c | 1 <= r < |p| && 0 <= c < |s|
      ensures NoWaitAt(p, s, d, r, c)
    {
      if c == 0 {
        assert d[r][0] == first[r] && d[r - 1][0] == first[r - 1];
      } else {
        assert PlacedAt(p, s, d, c);
      }
    }
    forall r, c | 1 <= r < |p| && 1 <= c < |s|
      ensures FreeOnArrival(p, s, d, r, c)
    {
      assert PlacedAt(p, s, d, c);
    }
    forall c | 1 <= c < |s|
      ensures d[0][c] >= d[0][c - 1] + Time(p, 0, s[c])
    {
      assert PlacedAt(p, s, d, c);
    }
  }

  /** In a no-wait timetable a job's departure from machine `r` is its
      departure from machine 0 plus a fixed offset, the same for every
      timetable. */
  lemma {:induction false} SameOffset(p: seq<seq<int>>, s: seq<int>, d: seq<seq<int>>, e: seq<seq<int>>, r: nat, c: nat)
    requires Accepts(p, s) && Feasible(p, s, d) && Feasible(p, s, e)
    requires r < |p| && c < |s|
    ensures d[r][c] - d[0][c] == e[r][c] - e[0][c]
    decreases r
  {
    if r > 0 {
      assert NoWaitAt(p, s, d, r, c) && NoWaitAt(p, s, e, r, c);
      SameOffset(p, s, d, e, r - 1, c);
    }
  }

  /** When the computed departures of position `c - 1` are no later than a
      feasible timetable's, so is the computed departure of position `c` from
      machine 0. */
  lemma EarliestStart(p: seq<seq<int>>, s: seq<int>, d: seq<seq<int>>, e: seq<seq<int>>, c: nat)
    requires Accepts(p, s) && IsNoWaitSchedule(p, s, d) && Feasible(p, s, d) && Feasible(p, s, e)
    requires 1 <= c < |s|
    requires forall r :: 0 <= r < |p| ==> d[r][c - 1] <= e[r][c - 1]
    ensures d[0][c] <= e[0][c]
  {
    assert PlacedAt(p, s, d, c);
    if d[0][c] != d[0][c - 1] + Time(p, 0, s[c]) {
      // the job was pushed back until machine w became free
      var w :| 1 <= w < |p| && d[w - 1][c] == d[w][c - 1];
      PushedStart(p, s, d, e, w, c);
    }
  }

  /** A job the computed departures hold back until machine `w` is free
      starts no earlier in a feasible timetable whose previous position
      leaves machine `w` no earlier. */
  lemma PushedStart(p: seq<seq<int>>, s: seq<int>, d: seq<seq<int>>, e: seq<seq<int>>, w: nat, c: nat)
    requires Accepts(p, s) && Feasible(p, s, d) && Feasible(p, s, e)
    requires 1 <= c < |s| && 1 <= w < |p|
    requires d[w - 1][c] == d[w][c - 1] && d[w][c - 1] <= e[w][c - 1]
    ensures d[0][c] <= e[0][c]
  {
    assert FreeOnArrival(p, s, e, w, c);
    SameOffset(p, s, d, e, w - 1, c);
  }

  /** One column of `Earliest`, by induction on the position. */
  lemma {:induction false} EarliestColumn(p: seq<seq<int>>, s: seq<int>, d: seq<seq<int>>, e: seq<seq<int>>, c: nat)
    requires Accepts(p, s) && IsNoWaitSchedule(p, s, d) && Feasible(p, s, e)
    requires c < |s|
    ensures forall r :: 0 <= r < |p| ==> d[r][c] <= e[r][c]
    decreases c
  {
    ScheduleIsFeasible(p, s, d);
    if c == 0 {
      assert d[0][0] == Cumulative(p, s[0], |p|)[0];
    } else {
      EarliestColumn(p, s, d, e, c - 1);
      EarliestStart(p, s, d, e, c);
    }
    forall r | 0 <= r < |p|
      ensures d[r][c] <= e[r][c]
    {
      SameOffset(p, s, d, e, r, c);
    }
  }

  /** The engine's departures are the earliest possible: every feasible
      no-wait timetable departs no earlier, cell by cell. */
  lemma Earliest(p: seq<seq<int>>, s: seq<int>, d: seq<seq<int>>, e: seq<seq<int>>)
    requires Accepts(p, s) && IsNoWaitSchedule(p, s, d) && Feasible(p, s, e)
    ensures forall r, c :: 0 <= r < |p| && 0 <= c < |s| ==> d[r][c] <= e[r][c]
  {
    forall r, c | 0 <= r < |p| && 0 <= c < |s|
      ensures d[r][c] <= e[r][c]
    {
      EarliestColumn(p, s, d, e, c);
    }
  }

  /** The no-wait rules have exactly one solution, so `Departures` is it. */
  lemma Unique(p: seq<seq<int>>, s: seq<int>, d1: seq<seq<int>>, d2: seq<seq<int>>)
    requires Accepts(p, s) && IsNoWaitSchedule(p, s, d1) && IsNoWaitSchedule(p, s, d2)
    ensures d1 == d2
  {
    ScheduleIsFeasible(p, s, d1);
    ScheduleIsFeasible(p, s, d2);
    Earliest(p, s, d1, d2);
    Earliest(p, s, d2, d1);
    forall r | 0 <= r < |p|
      ensures d1[r] == d2[r]
    {
    }
  }

  /** A validly placed column stays validly placed when the matrix is cut
      down to its first `k` columns. */
  lemma PrefixPlaced(p: seq<seq<int>>, s: seq<int>, d: seq<seq<int>>, k: nat, t: seq<seq<int>>, c: nat)
    requires Accepts(p, s) && IsTimeMatrix(d, |p|, |s|) && 1 <= c < k <= |s| && PlacedAt(p, s, d, c)
    requires Accepts(p, s[..k]) && IsTimeMatrix(t, |p|, k)
    requires forall r :: 0 <= r < |p| ==> t[r][c] == d[r][c] && t[r][c - 1] == d[r][c - 1]
    ensures PlacedAt(p, s[..k], t, c)
  {
    var u := s[..k];
    assert u[c] == s[c];
    assert forall r :: 1 <= r < |p| ==> t[r][c] == t[r - 1][c] + Time(p, r, u[c]) by {
      forall r | 1 <= r < |p|
        ensures t[r][c] == t[r - 1][c] + Time(p, r, u[c])
      {
        assert d[r][c] == d[r - 1][c] + Time(p, r, s[c]);
      }
    }
    if t[0][c] != t[0][c - 1] + Time(p, 0, u[c]) {
      var w :| 1 <= w < |p| && d[w - 1][c] == d[w][c - 1];
      assert t[w - 1][c] == t[w][c - 1];
    }
  }

  /** Computing a later column never changes an earlier one: the departures
      for a prefix of the sequence are the leading columns of the departures
      for the whole sequence. */
  lemma PrefixStable(p: seq<seq<int>>, s: seq<int>, k: nat)
    requires Accepts(p, s) && 1 <= k <= |s|
    ensures Accepts(p, s[..k])
    ensures forall r, c :: 0 <= r < |p| && 0 <= c < k ==>
              Departures(p, s[..k])[r][c] == Departures(p, s)[r][c]
  {
    var d := Departures(p, s);
    var t := seq(|p|, r requires 0 <= r < |p| => d[r][..k]);
    var u := s[..k];
    assert Accepts(p, u);
    assert IsTimeMatrix(t, |p|, |u|);
    assert FirstColumnOk(p, u, t) by {
      assert FirstColumnOk(p, s, d);
      assert u[0] == s[0];
    }
    forall c | 1 <= c < k
      ensures PlacedAt(p, u, t, c)
    {
      assert PlacedAt(p, s, d, c);
      PrefixPlaced(p, s, d, k, t, c);
    }
    assert IsNoWaitSchedule(p, u, t);
    Unique(p, u, t, Departures(p, u));
  }

  /** With a single machine nothing can push a job back: each departure is
      the previous one plus the job's processing time. */
  lemma SingleMachine(p: seq<seq<int>>, s: seq<int>)
    requires Accepts(p, s) && |p| == 1
    ensures forall c :: 1 <= c < |s| ==>
              Departures(p, s)[0][c] == Departures(p, s)[0][c - 1] + Time(p, 0, s[c])
  {
    var d := Departures(p, s);
    forall c | 1 <= c < |s|
      ensures d[0][c] == d[0][c - 1] + Time(p, 0, s[c])
    {
      assert PlacedAt(p, s, d, c);
    }
  }

  /** Both engines start from the same first column: the first job's running
      sum of processing times. */
  lemma FirstColumnMatchesBlocking(p: seq<seq<int>>, s: seq<int>)
    requires Blocking.Accepts(p, s)
    ensures Accepts(p, s)
    ensures forall r :: 0 <= r < |p| ==>
              Departures(p, s)[r][0] == Blocking.Departures(p, s)[r][0]
  {
    var d := Departures(p, s);
    var b := Blocking.Departures(p, s);
    assert FirstColumnOk(p, s, d) && FirstColumnOk(p, s, b);
  }
}

=== FILE: results.dfy ===
/** Failure-carrying values shared by the model.

    The source signals errors with C++ exceptions (std::out_of_range,
    std::length_error, std::bad_alloc) and with null pointers; here each
    becomes an `Err` or a `None` that the caller has to inspect. */
module Results {

  /** A value that may be absent: the model of a pointer that may be null. */
  datatype Option<+T> = None | Some(value: T)

  /** The exceptions the modelled code throws, with the source's messages. */
  datatype Error =
    | OutOfRange(message: string)
    | LengthError(message: string)
    | BadAlloc

  /** Either a value or the exception that replaced it. */
  datatype Result<+T> = Ok(value: T) | Err(error: Error)
}

=== FILE: schedule.dfy ===
/** Vocabulary shared by the two departure-time engines (blocking and no-wait):
    processing-time matrices, job sequences, time matrices and the first column
    that both engines compute in the same way.

    Machines are 0-based rows; jobs are 1-based numbers, so the processing time
    of job `j` on machine `m` lives at `p[m][j - 1]`. */
module Schedule {

  /** A processing-time matrix: at least one machine, every machine row with
      one entry per job. */
  predicate IsProcMatrix(p: seq<seq<int>>) {
    |p| >= 1 && forall m :: 0 <= m < |p| ==> |p[m]| == |p[0]|
  }

  /** Number of jobs (columns) of a processing-time matrix. */
  function NumJobs(p: seq<seq<int>>): nat
    requires IsProcMatrix(p)
  {
    |p[0]|
  }

  /** Every processing time is non-negative. */
  predicate NonNegative(p: seq<seq<int>>) {
    forall m, j :: 0 <= m < |p| && 0 <= j < |p[m]| ==> p[m][j] >= 0
  }

  /** Processing time of (1-based) job `job` on (0-based) machine `m`. */
  function Time(p: seq<seq<int>>, m: int, job: int): int
    requires IsProcMatrix(p) && 0 <= m < |p| && 1 <= job <= NumJobs(p)
  {
    p[m][job - 1]
  }

  /** A sequence the engines accept: non-empty, every entry a job number of `p`. */
  predicate IsJobSeq(p: seq<seq<int>>, s: seq<int>)
    requires IsProcMatrix(p)
  {
    |s| >= 1 && forall c :: 0 <= c < |s| ==> 1 <= s[c] <= NumJobs(p)
  }

  /** The `max` helper both engine files define locally (the first argument
      wins a tie, which is invisible on integers). */
  function Max(a: int, b: int): (r: int)
    ensures r >= a && r >= b
    ensures r == a || r == b
  {
    if a >= b then a else b
  }

  /** A `rows` x `cols` matrix, row-major. */
  predicate IsTimeMatrix(d: seq<seq<int>>, rows: nat, cols: nat) {
    |d| == rows && forall r :: 0 <= r < rows ==> |d[r]| == cols
  }

  /** Departure times of one job on machines 0..n-1 when it meets no other
      job: a running sum of its processing times down the machines. */
  function Cumulative(p: seq<seq<int>>, job: int, n: nat): (col: seq<int>)
    requires IsProcMatrix(p) && 1 <= job <= NumJobs(p) && 1 <= n <= |p|
    ensures |col| == n
    ensures col[0] == Time(p, 0, job)
    ensures forall r :: 1 <= r < n ==> col[r] == col[r - 1] + Time(p, r, job)
  {
    if n == 1 then [Time(p, 0, job)]
    else
      var above := Cumulative(p, job, n - 1);
      above + [above[n - 2] + Time(p, n - 1, job)]
  }

  /** Column 0 of a time matrix is the running sum of the first job's times. */
  predicate FirstColumnOk(p: seq<seq<int>>, s: seq<int>, d: seq<seq<int>>)
    requires IsProcMatrix(p) && IsJobSeq(p, s) && IsTimeMatrix(d, |p|, |s|)
  {
    forall r :: 0 <= r < |p| ==> d[r][0] == Cumulative(p, s[0], |p|)[r]
  }

  /** Turns a list of columns (each of length `rows`) into a row-major matrix. */
  function Transpose(cols: seq<seq<int>>, rows: nat): (d: seq<seq<int>>)
    requires forall c :: 0 <= c < |cols| ==> |cols[c]| == rows
    ensures IsTimeMatrix(d, rows, |cols|)
    ensures forall r, c :: 0 <= r < rows && 0 <= c < |cols| ==> d[r][c] == cols[c][r]
  {
    seq(rows, r requires 0 <= r < rows => seq(|cols|, c requires 0 <= c < |cols| => cols[c][r]))
  }
}

=== FILE: solution.dfy ===
/** `fshop::FlowshopSolution` (src/flowshopbasic.cpp): a job sequence buffer
    with 1-based, bounds-checked access and move-only ownership. The buffer
    pointer is an `Option`: `None` is the null a moved-from solution holds. */
module Solution {
  import opened Results

  datatype FlowshopSolution = FlowshopSolution(
    cmax: int,
    totalFlowTime: int,
    jobSequence: Option<seq<int>>,
    seqSize: nat)

  /** The message of every failed access (line 24). */
  const IndexMessage := "Flowshop sequence index out of range."

  /** A live buffer has `seqSize` cells. */
  predicate Valid(s: FlowshopSolution) {
    s.jobSequence.Some? ==> |s.jobSequence.value| == s.seqSize
  }

  /** The constructor (lines 7-10): a buffer of `numJobs` cells and
      `seqSize == numJobs`. C++ leaves the cells and the two objective fields
      uninitialised; `cells`, `cmax` and `totalFlowTime` stand for whatever
      they hold. */
  function New(numJobs: nat, cells: seq<int>, cmax: int, totalFlowTime: int): (s: FlowshopSolution)
    requires |cells| == numJobs
    ensures Valid(s) && s.seqSize == numJobs && s.jobSequence.Some?
  {
    FlowshopSolution(cmax, totalFlowTime, Some(cells), numJobs)
  }

  /** Reading `operator[]` (lines 21-27): position `index` counts from 1, and
      a null buffer, index 0 or an index past `seqSize` is `out_of_range`. */
  function At(s: FlowshopSolution, index: nat): (r: Result<int>)
    requires Valid(s)
    ensures r.Ok? <==> s.jobSequence.Some? && 1 <= index <= s.seqSize
    ensures r.Err? ==> r.error == OutOfRange(IndexMessage)
    ensures r.Ok? ==> r.value == s.jobSequence.value[index - 1]
  {
    if s.jobSequence.None? || index > s.seqSize || index == 0 then Err(OutOfRange(IndexMessage))
    else Ok(s.jobSequence.value[index - 1])
  }

  /** Writing through the reference `operator[]` returns: the same checks,
      then one cell of the buffer changes. */
  function Store(s: FlowshopSolution, index: nat, val: int): (r: Result<FlowshopSolution>)
    requires Valid(s)
    ensures r.Ok? <==> s.jobSequence.Some? && 1 <= index <= s.seqSize
    ensures r.Err? ==> r.error == OutOfRange(IndexMessage)
    ensures r.Ok? ==> Valid(r.value) && r.value.seqSize == s.seqSize
    ensures r.Ok? ==> r.value.cmax == s.cmax && r.value.totalFlowTime == s.totalFlowTime
  {
    if s.jobSequence.None? || index > s.seqSize || index == 0 then Err(OutOfRange(IndexMessage))
    else Ok(s.(jobSequence := Some(s.jobSequence.value[index - 1 := val])))
  }

  /** The move constructor (lines 29-36): the new solution takes every field,
      buffer included, and the source is left with a null buffer. The result
      pair is (new solution, source afterwards). */
  function MoveConstruct(obj: FlowshopSolution): (r: (FlowshopSolution, FlowshopSolution))
    requires Valid(obj)
    ensures Valid(r.0) && Valid(r.1)
    ensures r.0 == obj
    ensures r.1.jobSequence.None?
    ensures r.1.seqSize == obj.seqSize && r.1.cmax == obj.cmax && r.1.totalFlowTime == obj.totalFlowTime
  {
    (obj, obj.(jobSequence := None))
  }

  /** Move assignment (lines 38-45): the same transfer into an existing
      solution, whose previous fields are all overwritten. The result pair is
      (target afterwards, source afterwards). */
  function MoveAssign(target: FlowshopSolution, obj: FlowshopSolution): (r: (FlowshopSolution, FlowshopSolution))
    requires Valid(obj)
    ensures Valid(r.0) && Valid(r.1)
    ensures r.0 == obj
    ensures r.1.jobSequence.None?
    ensures r.1.seqSize == obj.seqSize && r.1.cmax == obj.cmax && r.1.totalFlowTime == obj.totalFlowTime
  {
    (target.(cmax := obj.cmax, totalFlowTime := obj.totalFlowTime,
             jobSequence := obj.jobSequence, seqSize := obj.seqSize),
     obj.(jobSequence := None))
  }

  /** Move assignment of a solution to itself (`x = std::move(x)`): the field
      copies change nothing, and the final null store then hits the same
      object, so it is left without a buffer. `MoveAssign` covers two
      distinct objects only. */
  function SelfMoveAssign(x: FlowshopSolution): (r: FlowshopSolution)
    requires Valid(x)
    ensures Valid(r)
    ensures r.jobSequence.None?
    ensures r.seqSize == x.seqSize && r.cmax == x.cmax && r.totalFlowTime == x.totalFlowTime
  {
    var copied := x.(cmax := x.cmax, totalFlowTime := x.totalFlowTime,
                     jobSequence := x.jobSequence, seqSize := x.seqSize);
    copied.(jobSequence := None)
  }

  /** After a self-move every access throws, whatever the solution held; a
      move between distinct objects keeps the contents readable through the
      target instead. */
  lemma SelfMoveEmpties(x: FlowshopSolution, i: nat)
    requires Valid(x)
    ensures At(SelfMoveAssign(x), i) == Err(OutOfRange(IndexMessage))
    ensures x.jobSequence.Some? && 1 <= i <= x.seqSize ==>
              At(SelfMoveAssign(x), i) != At(MoveAssign(x, x).0, i)
  {
  }

  /** A fresh solution accepts exactly the positions `1..numJobs`. */
  lemma NewIndexRange(numJobs: nat, cells: seq<int>, cmax: int, totalFlowTime: int, index: nat)
    requires |cells| == numJobs
    ensures At(New(numJobs, cells, cmax, totalFlowTime), index).Ok? <==> 1 <= index <= numJobs
  {
  }

  /** Store-then-read: the written position reads back the value, every other
      position reads back what it held. */
  lemma AtAfterStore(s: FlowshopSolution, index: nat, val: int, i: nat)
    requires Valid(s) && Store(s, index, val).Ok?
    ensures At(Store(s, index, val).value, i) == if i == index then Ok(val) else At(s, i)
  {
  }

  /** Moving between two distinct objects transfers the contents: the new
      owner reads what the source read before, and every later access through
      the source throws. */
  lemma MoveTransfers(obj: FlowshopSolution, i: nat)
    requires Valid(obj)
    ensures At(MoveConstruct(obj).0, i) == At(obj, i)
    ensures At(MoveConstruct(obj).1, i) == Err(OutOfRange(IndexMessage))
    ensures forall target :: At(MoveAssign(target, obj).0, i) == At(obj, i)
    ensures forall target :: At(MoveAssign(target, obj).1, i) == Err(OutOfRange(IndexMessage))
  {
  }
}

=== FILE: stringutils.dfy ===
/** Whitespace trimming (include/stringutils.h). The in-place `s_*trim`
    functions and their `_copy` variants compute the same string; strings are
    values here, so one function models both. */
module StringUtils {

  /** `std::isspace` in the "C" locale: space, tab, newline, vertical tab,
      form feed and carriage return. */
  predicate IsSpace(c: char) {
    c == ' ' || c == '\t' || c == '\n' || c == '\U{B}' || c == '\U{C}' || c == '\r'
  }

  /** Every character is whitespace (true of the empty string). */
  predicate AllSpace(s: string) {
    forall i :: 0 <= i < |s| ==> IsSpace(s[i])
  }

  /** Neither starts nor ends with whitespace. */
  predicate IsTrimmed(s: string) {
    |s| == 0 || (!IsSpace(s[0]) && !IsSpace(s[|s| - 1]))
  }

  /** `s_ltrim`: drops the maximal run of leading whitespace, leaving a suffix. */
  function LTrim(s: string): (r: string)
    ensures |r| <= |s| && r == s[|s| - |r|..]
    ensures AllSpace(s[..|s| - |r|])
    ensures |r| > 0 ==> !IsSpace(r[0])
  {
    if |s| > 0 && IsSpace(s[0]) then LTrim(s[1..]) else s
  }

  /** `s_rtrim`: drops the maximal run of trailing whitespace, leaving a prefix. */
  function RTrim(s: string): (r: string)
    ensures |r| <= |s| && r == s[..|r|]
    ensures AllSpace(s[|r|..])
    ensures |r| > 0 ==> !IsSpace(r[|r| - 1])
  {
    if |s| > 0 && IsSpace(s[|s| - 1]) then RTrim(s[..|s| - 1]) else s
  }

  /** Both-sided trim, defined directly: strip one whitespace character from
      either end until neither end is whitespace. `TrimComposes` shows it is
      `s_trim`, i.e. `s_rtrim` after `s_ltrim`. */
  function Trim(s: string): (r: string)
    ensures IsTrimmed(r)
    ensures |r| <= |s|
  {
    if |s| > 0 && IsSpace(s[0]) then Trim(s[1..])
    else if |s| > 0 && IsSpace(s[|s| - 1]) then Trim(s[..|s| - 1])
    else s
  }

  /** `s_trim` trims the left end, then the right end; that is `Trim`. */
  lemma {:induction false} TrimComposes(s: string)
    ensures Trim(s) == RTrim(LTrim(s))
    decreases |s|
  {
    if |s| > 0 && IsSpace(s[0]) {
      TrimComposes(s[1..]);
    } else if |s| > 0 && IsSpace(s[|s| - 1]) {
      var t := s[..|s| - 1];
      TrimComposes(t);
      assert LTrim(t) == t;
    }
  }

  /** Trimming a string that is already trimmed changes nothing. */
  lemma TrimmedIsFixpoint(s: string)
    requires IsTrimmed(s)
    ensures Trim(s) == s
  {
  }

  /** Trimming is idempotent. */
  lemma TrimIdempotent(s: string)
    ensures Trim(Trim(s)) == Trim(s)
  {
    TrimmedIsFixpoint(Trim(s));
  }

  /** A string trims to the empty string exactly when it is all whitespace. */
  lemma {:induction false} TrimEmptyIffAllSpace(s: string)
    ensures Trim(s) == "" <==> AllSpace(s)
    decreases |s|
  {
    if |s| > 0 && IsSpace(s[0]) {
      TrimEmptyIffAllSpace(s[1..]);
      assert AllSpace(s) <==> AllSpace(s[1..]) by {
        assert forall i :: 1 <= i < |s| ==> s[i] == s[1..][i - 1];
      }
    } else if |s| > 0 && IsSpace(s[|s| - 1]) {
      var t := s[..|s| - 1];
      TrimEmptyIffAllSpace(t);
      assert AllSpace(s) <==> AllSpace(t) by {
        assert forall i :: 0 <= i < |t| ==> s[i] == t[i];
      }
    }
  }
}
